=== FILE: README.md ===
# AFH Manager core, modelled in Dafny

AFH Manager is a Flask application for an adult family home. Staff log each
resident's meals, liquids, bowel movements and urine output. They keep the
resident's documents and medications, and get alerts for missed meals,
missed doses and expiring items. This project models the logic of that
application as pure Dafny functions over immutable rows and proves what it
promises. It covers four source files:

- **app.py**:
  - input sanitizing and password rules
  - the home-page alerts
  - the daily-log page
  - the documents page
  - the report window, day range, meal counts and chart
  - the report's download name
- **medication_notifications.py**: the five-band expiry classifier and the
  send-once de-duplication over the notification log.
- **models.py**: the encrypted `Resident` row, its accessors, and the
  date-of-birth getter, setter and formatter.
- **forms.py**: the choice lists and required-field rules of the four care forms.

The database is replaced by sequences of rows and a caller-supplied id for
new rows. The clock is a parameter (`today`, or a `Moment` for
`datetime.now()`). An e-mail is a value appended to an outbox. The Fernet
cipher is a pair of functions passed in.

Module layout, one module per file:

| file | module | what it holds |
|---|---|---|
| `maybe.dfy` | `Maybe` | `Option`, for Python's `None` |
| `text.dfy` | `Text` | whitespace as `str.strip()` sees it, WTForms `DataRequired` and select fields, decimal rendering |
| `dates.dfy` | `Dates` | proleptic Gregorian dates, `toordinal`/`fromordinal`, `timedelta` arithmetic, `isoformat`, `strptime` for `%Y-%m-%d` and `%H:%M` |
| `seqs.dfy` | `Seqs` | list comprehensions (`Filter`), `.count()` (`Count`) and lookup by id (`Find`) |
| `records.dfy` | `Records` | the table rows the logic reads |
| `sanitize.dfy` | `Sanitize` | `sanitize_input` |
| `input_rules.dfy` | `InputRules` | `validate_password`; the document file-type rule |
| `daily_logs.dfy` | `DailyLogs` | the daily-log page |
| `home_alerts.dfy` | `HomeAlerts` | the home page's alerts and e-mails |
| `documents.dfy` | `Documents` | the documents page: listing, upload, delete |
| `report.dfy` | `Report` | the report page without PDF drawing |
| `expiry_alerts.dfy` | `ExpiryAlerts` | `check_and_send_medication_alerts` and the notification log |
| `resident_model.dfy` | `ResidentModel` | `EncryptedText` and the `Resident` properties |
| `care_forms.dfy` | `CareForms` | the WTForms classes of forms.py |

An accepted add submission inserts one row and one audit entry. An accepted delete removes the documents with that id and adds one audit entry. Any other submission, including a refused or unvalidated one, changes nothing, and the report form writes nothing.

The model includes three behaviours that may look like mistakes:

- Deleting a document looks it up by id only. A document of another
  resident can be deleted from this resident's page (`Documents.DeleteIgnoresOwner`).
- forms.py spells its choices in capitals ("Small", "Yes"). app.py defines
  its own forms, with lower-case choices, and does not use forms.py. No value
  passes both sets of rules (`CareForms.DisjointFromAppChecks`).
- On the daily-log page, app.py checks the meal type, bowel size and
  consistency, and urine output again after form validation. The select
  fields have already limited them to the same lists, so these checks never
  refuse (`DailyLogs.ValidatedNeverRefused`).

## Model

| member | source | states |
|---|---|---|
| `Sanitize.SanitizeInput` | app.py:273-276 | `None` stays `None` and `""` stays `""`. Any other text comes back with no `<…>` markup span left, no whitespace at either end, and no longer than it went in |
| `Sanitize.RemoveTagsNoSpan` | app.py:275 | after the left-to-right removal of `<[^>]+>` matches, no `<`, non-`>` characters, `>` span remains, even one the removal itself joined up |
| `Sanitize.SanitizeIdempotent` | app.py:273-276 | sanitizing an already sanitized value changes nothing |
| `Sanitize.SanitizePlainText` | app.py:273-276 | text without a `<` is only stripped |
| `InputRules.ValidatePassword` | app.py:279-286 | accepted exactly when the password has at least 8 characters, an ASCII capital and an ASCII digit. The message is empty exactly when it is accepted |
| `InputRules.PasswordReportsFirstBroken` | app.py:279-286 | a rejected password gets the message of the first rule it breaks, in the order length, uppercase, digit |
| `InputRules.FirstBroken` | app.py:280-285 | the rule returned is in the list and broken. `None` means every rule holds |
| `InputRules.AllowedUploadByExtension` | app.py:889-893 | a file name is accepted exactly when the text after its last dot is `pdf` in lower case, or `jpg`, `jpeg` or `png` in any case |
| `InputRules.PdfCaseSensitive` | app.py:889-891 | example: `scan.pdf` is accepted and `scan.PDF` is refused |
| `InputRules.ImageCaseFree` | app.py:890-891 | example: `photo.JPG`, `photo.Jpeg` and `chart.PNG` are accepted |
| `InputRules.OtherTypesRefused` | app.py:889-893 | example: `notes.txt` and a bare `pdf` are refused |
| `InputRules.AllowedUpload` | app.py:889-891 | an accepted name has a `.` four or five characters from its end. The exact rule is stated by `AllowedUploadByExtension` |
| `Dates.ParseIsoFormat` | app.py:957-959 | `strptime('%Y-%m-%d')` reads back exactly the date `isoformat` wrote |
| `Dates.ParseIso` | app.py:957-959 | a text `strptime('%Y-%m-%d')` accepts has 8 to 10 characters, and its first four are the year's digits |
| `Dates.ParseClock` | app.py:689-734 | a text `strptime('%H:%M')` accepts has 3 to 5 characters including a `:`, and gives an hour below 24 and a minute below 60 |
| `Dates.IsoFormatInjective` | app.py:993-994 | distinct dates have distinct ISO keys |
| `Dates.AddDaysCompose` | app.py:650-651 | adding zero days is the identity. Adding `a` then `b` days is adding `a + b` days |
| `Dates.FromOrdinalOrdinal` | app.py:980-983 | `fromordinal` undoes `toordinal` on every date of years 1-9999 |
| `Seqs.Find` | app.py:914 | the element found satisfies the test, and `None` means none does |
| `Documents.FindDocument` | app.py:914 | the document found has the id asked for. `None` means no document has it |
| `Records.FindResident` | medication_notifications.py:24-26 | the resident found has the id asked for. `None` means no resident has it |
| `DailyLogs.LogPage` | app.py:630-651 | the page's day is the parsed `date` argument, or today when it is absent. Previous and next are one day before and after. A malformed date, or a neighbour outside years 1-9999, is a server error |
| `DailyLogs.LogPageLinks` | app.py:650-651 | following "next" and then "previous" returns to the same page |
| `DailyLogs.FormValidatesIff` | app.py:205-241 | a food form validates exactly when its meal type is one of the three. A liquid form needs a non-blank time and at most 50 characters of type and amount. A bowel or urine form needs a non-blank time and listed values |
| `DailyLogs.PostDailyLogById` | app.py:627-630 | an unknown resident id is a 404 that changes nothing. Otherwise the POST is handled for the resident with that id |
| `DailyLogs.PostDailyLog` | app.py:630-757 | a date the page rejects is a server error whatever was posted. Otherwise nothing is handled exactly when the CSRF token, the form or the role fails. A POST either saves exactly one row and one audit entry by the current user, or changes nothing |
| `DailyLogs.AddEntry` | app.py:658-753 | a validated form is never refused. It is a server error exactly when the form has a time that does not parse. A validated form saves exactly when it is a food form or its time parses, and then adds one row and one audit entry by the user |
| `DailyLogs.SaveFood` | app.py:663-682 | never a server error. Refused exactly when the meal type is not one of the three. Otherwise one food row holding that meal, the day and the sanitized description is added, with the audit entry |
| `DailyLogs.SaveLiquid` | app.py:687-702 | never refused. A server error exactly when the time does not parse. Otherwise one liquid row holding the day, the parsed time and the sanitized type and amount is added, with the audit entry |
| `DailyLogs.SaveBowel` | app.py:703-729 | a server error exactly when the time does not parse. Refused exactly when the time parses but the size or consistency is not listed. Otherwise one row and the audit entry are added |
| `DailyLogs.SaveUrine` | app.py:730-753 | a server error exactly when the time does not parse. Refused exactly when the time parses but the output is not listed. Otherwise one row and the audit entry are added |
| `DailyLogs.AuditAction` | app.py:677-750 | the audit text ends with the resident's name |
| `DailyLogs.ValidatedNeverRefused` | app.py:665-736 | the explicit value checks after validation never refuse |
| `DailyLogs.FoodWrittenIff` | app.py:630-682 | a food row is written exactly when the page's date is accepted, the CSRF token is valid, the user may log and the meal is breakfast, lunch or dinner. The row holds the page's day, that meal and the sanitized description |
| `DailyLogs.LiquidWrittenIff` | app.py:630-702 | a liquid row is written exactly when the page's date is accepted, the token is valid, the user may log, the time is non-blank and parses, and type and amount have at most 50 characters. It holds the page's day, the parsed time and the sanitized type and amount, and no other table changes |
| `DailyLogs.BowelWrittenIff` | app.py:630-729 | a bowel row is written exactly when the page's date is accepted, the token is valid, the user may log, the time is non-blank and parses, and the size and consistency are listed. It is dated with the page's day, and no other table changes |
| `DailyLogs.UrineWrittenIff` | app.py:630-753 | a urine row is written exactly when the page's date is accepted, the token is valid, the user may log, the time is non-blank and parses, and the output is `yes`, `no` or `no output` |
| `DailyLogs.MissingMeals` | app.py:643-648 | a meal is listed exactly when no food intake of the resident on that day has it. The list keeps breakfast-lunch-dinner order |
| `DailyLogs.FoodPostClearsMissingMeal` | app.py:643-682 | logging a meal removes it from the page's missing list and leaves the other meals' verdicts unchanged |
| `DailyLogs.AppendMealRow` | app.py:643-648 | an added food row logs its own meal and changes no other meal's verdict for any resident or day |
| `HomeAlerts.MealAlerts` | app.py:343-350 | one alert per meal the resident has not logged today, in breakfast-lunch-dinner order, and nothing else |
| `HomeAlerts.DocumentAlerts` | app.py:351-355 | an expired-document alert exactly for each of the resident's documents whose expiration date is strictly before today. There are as many alerts as such documents |
| `HomeAlerts.DoseAlerts` | app.py:360-368 | a missing-dose alert exactly for each of the resident's daily medications that has not ended and has no log today. There are as many alerts as such medications |
| `HomeAlerts.Home` | app.py:339-372 | every alert is about a listed resident |
| `HomeAlerts.HomeAlertsIff` | app.py:339-372 | over all residents, each alert kind appears for a resident exactly under its own condition |
| `HomeAlerts.DoseMissingIff` | app.py:362-366 | a dose is missing exactly when the medication is due and no log for it is dated today |
| `HomeAlerts.BoundaryDays` | app.py:353-363 | a document expiring today raises nothing. A daily medication ending today is still checked |
| `HomeAlerts.Emails` | app.py:351-372 | never more e-mails than alerts |
| `HomeAlerts.ResidentEmails` | app.py:351-372 | the e-mails number the resident's expired documents plus the missing doses. Missing meals send none |
| `Documents.ResidentDocuments` | app.py:873 | the listed documents are exactly the resident's |
| `Documents.ExpiredDocuments` | app.py:876-879 | `expired_documents` holds exactly the resident's documents whose expiration date is before today |
| `Documents.ExpiredAgreesWithHome` | app.py:876-879 | the documents page and the home page agree on which documents are expired |
| `Documents.Stamp` | app.py:895 | the `%Y%m%d%H%M%S` stamp is 14 ASCII digits |
| `Documents.StampInjective` | app.py:895 | two different moments, to the second, give two different stamps |
| `Documents.StoredName` | app.py:895 | the saved name still has an accepted suffix whenever the uploaded name had one |
| `Documents.SplitStoredNameRoundTrip` | app.py:895 | a saved name reads back into the resident id, the stamp and the uploaded name |
| `Documents.StoredNameInjective` | app.py:895 | uploads for different residents, at different seconds or of different file names never share a saved name |
| `Documents.Upload` | app.py:881-910 | a document is added exactly when a file and a non-blank sanitized name are given, the type is accepted and the save succeeds. Otherwise the store is unchanged. A missing file or blank name gives "File and name are required". Otherwise a refused type gives the file-type message. Otherwise a failed save gives `UploadFailed` |
| `Documents.Delete` | app.py:911-926 | a missing `document_id` is a bad request and an unknown id is a 404. Otherwise exactly the documents with that id are removed and one audit entry is appended |
| `Documents.PostDocuments` | app.py:868-927 | a non-administrator is sent away with nothing changed, and an unknown resident is a 404. Only an upload or a delete changes the store |
| `Documents.UploadIff` | app.py:881-910 | the full condition under which a document is added. The new row holds the page's resident, the sanitized name, today's date and a saved name that reads back to resident, stamp and file name |
| `Documents.DeleteIff` | app.py:911-926 | the full condition under which a document is deleted. It does not depend on the document's resident |
| `Documents.DeleteRemovesOne` | app.py:912-920 | with unique ids, a delete removes exactly one document |
| `Documents.PostKeepsUniqueIds` | app.py:881-926 | an upload under a fresh id and a delete both keep document ids unique |
| `Documents.DeleteIgnoresOwner` | app.py:911-926 | example: a document of resident 2 is deleted from resident 1's page, and the audit entry names resident 1 |
| `Report.ReportWindow` | app.py:953-963 | either argument failing to parse flashes and falls back to the last seven days. Otherwise each given argument is taken as parsed and each absent one defaults. A `today` within the first week of year 1 overflows |
| `Report.DefaultWindow` | app.py:953-955 | without arguments the window runs from a week ago through today, with no message |
| `Report.ExplicitWindow` | app.py:957-959 | dates given in ISO form are taken exactly, in either order |
| `Report.DateRange` | app.py:980-983 | the range has `(end - start).days + 1` days, none when end precedes start, and day `i` is `start + i` |
| `Report.DateRangeMembers` | app.py:980-983 | a date is in the range exactly when it lies in the window. The range is strictly increasing |
| `Report.ZeroCounts` | app.py:984-991 | one zeroed counter per day of the range, and no other key |
| `Report.MealCounts` | app.py:984-995 | the keys are exactly the range's ISO dates. Each counter is the number of intakes of that day and meal |
| `Report.ChartData` | app.py:996-1001 | one label per day, its ISO date. Each meal series has one entry per day holding that day's count |
| `Report.WindowCounts` | app.py:965-966 | counting among the window's rows equals counting the resident's rows of that day among all rows |
| `Report.ReportChart` | app.py:965-1001 | each chart value is the number of the resident's intakes of that day and meal in the whole table |
| `Report.SafeName` | app.py:1075 | same length. Every character is a word character or `-`, kept exactly when it was one already, otherwise `_` |
| `Report.SafeNameFixed` | app.py:1075 | a name of kept characters is unchanged, so the replacement is idempotent |
| `Report.ReportFileName` | app.py:1075-1079 | the download name is `report_`, the safe form of the name, `_`, the two dates and `.pdf`, 36 characters longer than the name |
| `Report.ReportFileNameSafe` | app.py:1075-1079 | whatever the resident's name, the download name holds only word characters, `-` and `.` |
| `ExpiryAlerts.Classify` | medication_notifications.py:31-60 | "expires today" exactly when the date is today, "seven days" exactly when it is a week out, "overdue" exactly when it is before today, and nothing exactly when it is after the week |
| `ExpiryAlerts.HasBeenSent` | medication_notifications.py:113-125 | a failing log reports nothing sent (fail-open). A pair reads as sent only when the log holds it |
| `ExpiryAlerts.ListingText` | medication_notifications.py:36-103 | a mailed item's line starts with `EXPIRED: `, `7-DAY WARNING: ` or `OVERDUE: ` by its band. An unmailed expired or overdue item's line starts with `Expired ` |
| `ExpiryAlerts.ClassifyByDistance` | medication_notifications.py:31-60 | the band depends only on the days to expiry: 0 is today, 7 is the seven-day warning, negative is overdue, 1-6 is only listed, more than 7 is nothing |
| `ExpiryAlerts.BandAlert` | medication_notifications.py:31-58 | exactly the bands "expires today", "in seven days" and "overdue" have an alert type |
| `ExpiryAlerts.AlertKeyInjective` | medication_notifications.py:29 | an alert key determines the item kind, its id and its expiration date |
| `ExpiryAlerts.MarkSent` | medication_notifications.py:127-141 | with a working log the pair is added. A failing log stays failing and records nothing |
| `ExpiryAlerts.MarkThenHas` | medication_notifications.py:113-141 | after recording, a pair reads as sent exactly when the log works and it is the recorded pair or was sent before |
| `ExpiryAlerts.Step` | medication_notifications.py:20-60 | an item sends exactly when its band e-mails and its pair is unsent. Its pair is then recorded and one e-mail queued; otherwise store and outbox are unchanged. One listing is appended exactly when the item is listed, marked as mailed exactly when it sent |
| `ExpiryAlerts.CheckAlerts` | medication_notifications.py:13-14 | the run fails exactly when `today + 7 days` overflows year 9999 |
| `ExpiryAlerts.QuietBands` | medication_notifications.py:20-60 | a skipped or far-off item changes nothing. An item 1-6 days out is listed without e-mail |
| `ExpiryAlerts.ProcessAll` | medication_notifications.py:20-103 | alerts and outbox only grow and keep what they held. The alerts gain exactly one listing per item that is listed, and the outbox at most one e-mail per item |
| `ExpiryAlerts.ProcessAllGrows` | medication_notifications.py:127-141 | the log only grows during a run |
| `ExpiryAlerts.ProcessAllCovers` | medication_notifications.py:31-103 | after a run with a working log, every item whose band e-mails has its pair recorded |
| `ExpiryAlerts.CoveredIsQuiet` | medication_notifications.py:31-103 | a run over items whose pairs are all recorded sends nothing and records nothing |
| `ExpiryAlerts.SecondRunQuiet` | medication_notifications.py:13-103 | a second run on the same day with the same rows sends no e-mail and leaves the log as it was |
| `ExpiryAlerts.ProcessAllAccounts` | medication_notifications.py:20-103 | with a working log, the log after a run holds exactly what it held before plus the pairs of the e-mails sent, so nothing is recorded without being mailed |
| `ExpiryAlerts.CheckAlertsSendsDue` | medication_notifications.py:13-103 | with a working log, every medication or document whose band e-mails and whose pair was not yet recorded is mailed during the run |
| `ExpiryAlerts.ProcessAllSendsOnce` | medication_notifications.py:31-103 | the pairs e-mailed in a run are pairwise distinct, were not recorded before, and are recorded after |
| `ExpiryAlerts.CheckAlertsSendsOnce` | medication_notifications.py:13-108 | the whole run, medications then documents, sends at most one e-mail per pair |
| `ExpiryAlerts.UnavailableSendsAll` | medication_notifications.py:113-141 | with the log failing, every item whose band e-mails is mailed on every run (fail-open) |
| `ExpiryAlerts.ExpiryExamples` | medication_notifications.py:31-38 | example: an item expiring today is mailed once, and checking it again only lists it |
| `ResidentModel.Bind` | models.py:23-26 | `None` is stored as `None`. Any text is stored encrypted |
| `ResidentModel.Load` | models.py:28-31 | `None` reads as `None`. Any text is read decrypted |
| `ResidentModel.BindLoad` | models.py:23-31 | when decryption undoes encryption, a value reads back as stored |
| `ResidentModel.SetThenGet` | models.py:40-81 | a pass-through property reads back what was set, and setting one leaves the others alone |
| `ResidentModel.SetDob` | models.py:57-65 | a falsy value stores `None`. Text is stored verbatim and a date as its 10-character ISO text. The other columns are untouched |
| `ResidentModel.GetDob` | models.py:48-55 | a date is returned exactly when the stored text parses, and it is the parsed date |
| `ResidentModel.DobRoundTrip` | models.py:48-65 | a date set on `dob` reads back as the same date. A falsy value reads back as `None` |
| `ResidentModel.DobThroughStorage` | models.py:23-65 | the date round trip survives encryption at rest |
| `ResidentModel.MalformedDob` | models.py:50-54 | any text `strptime` rejects reads as `None` instead of raising |
| `ResidentModel.MalformedDobExamples` | models.py:52 | example: `01/02/1950` and `1950-02-30` are rejected |
| `ResidentModel.UnpaddedDob` | models.py:52 | example: `1950-2-3` is read as 3 February 1950, because `strptime` accepts one-digit months and days |
| `ResidentModel.FormattedDobOfDate` | models.py:57-88 | a date set on `dob` is displayed as its long form |
| `ResidentModel.FormattedDob` | models.py:83-88 | `None` exactly when the getter gives `None`. Otherwise the long form of that date |
| `Text.ChoiceIsMembership` | forms.py:9 | when no choice is blank, a required select field accepts exactly its choices |
| `CareForms.FoodNotesFree` | forms.py:7-11 | the food form is valid exactly when the meal text has a non-space character and the level is one of the six. The notes never matter |
| `CareForms.LiquidRequired` | forms.py:13-16 | the liquid form is valid exactly when both fields have a non-space character |
| `CareForms.ListedAccepted` | forms.py:18-24 | every listed value, in its own spelling, is accepted |
| `CareForms.DisjointFromAppChecks` | forms.py:18-24 | no size, consistency or urine output accepted here is accepted by the daily-log page's own checks |

## Left out

- Flask routing, templates, flash storage and login are left out. The CSRF token's verdict is a boolean parameter (`csrfValid`). The rest of `validate_on_submit()` is modelled from the field rules of app.py's own forms (`DailyLogs.FormValidates`).
- Documents.PostDocuments: `form.validate_on_submit()` for `DocumentForm` (app.py:261-265), CSRF included, is a boolean parameter (`formValid`) and is not derived from the form's fields. The upload checks after it are modelled in full, so the model allows more refusals than a validated form can reach.
- SQLAlchemy is left out. Tables are sequences of rows. `get_or_404` and `query.get` are lookups. The id a new row gets is a parameter, and the model assumes the database makes it fresh. Commit failures after a successful file save are not modelled.
- `nullable=False` on `_name` and `_dob` is not enforced: the model lets either column be `None`.
- E-mail delivery (`send_alert_email`, `send_medication_alert`, `send_document_alert`) is left out, along with its failures. A send is an event in an outbox.
- The Fernet cipher and UTF-8 encoding and decoding are left out. `EncryptedText` takes an encrypt/decrypt pair of functions.
- PDF drawing in the report is left out. So are the liquid, bowel, urine and medication-log queries that only feed it.
- File input and output is left out: `file.save` is a success flag, and `os.remove` is not modelled (its failure is ignored by the source anyway).
- The other routes of app.py (medications, vitals, users, downloads and the rest) are outside this model. So is static/js/autocomplete.js.
- medication_notifications.py does not compile as written: the `try:` on line 8 is followed by an unindented docstring. The model follows the intended body, lines 13-108, without the outer `try`. The inner `except` around the loops (lines 105-106) is left out, so a run is never cut short. The notification rows are an `Item` with an optional expiration date and a set of (key, type) pairs.
- `Medication` is defined in app.py:106-117, not in models.py, and it has no `expiration_date`. So `med.expiration_date` at medication_notifications.py:21 raises `AttributeError` on the first medication. The model gives every item an optional expiration date instead.
- `from app import NotificationLog` (medication_notifications.py:115 and 129) names a class app.py does not define. The import sits outside the inner `try`, so `has_alert_been_sent` and `mark_alert_as_sent` raise `ImportError` instead of failing open, and the run ends at the `except` on line 105. The model assumes a notification log exists; its failing state stands for the inner `except` branches only.
- The notification log's failure is modelled per run: the store is either working for the whole run or failing for the whole run.
- `report`: `meal_counts[...][food.meal_type]` raises `KeyError` for a meal type other than the three. The model's intake rows always hold one of the three, since the daily-log page refuses any other.
- `document_id` is taken as a number. A non-numeric value is not modelled.
- `upload_date = date.today()` and the file stamp's `datetime.now()` are taken from the same moment. A midnight between the two calls is not modelled.
- Dates.ParseIso: the `\d` of `strptime` also accepts non-ASCII decimal digits. The model accepts ASCII digits only.
- Dates.ParseClock: likewise for `%H` and `%M`. A time such as `1` followed by ARABIC-INDIC DIGIT TWO, then `:30`, is 12:30 to `strptime` but does not parse in the model, which makes it a server error.
- Documents.Stamp, ResidentModel.SetDob, ResidentModel.FormattedDob, ResidentModel.DobRoundTrip, ResidentModel.DobThroughStorage: `%Y` (models.py:63, models.py:85, app.py:895) is modelled as four zero-padded digits. Some C libraries do not pad years below 1000, and then the stored text would not parse back.
- Report.SafeName: Python's `\w` also keeps non-ASCII letters and digits. The model keeps only ASCII ones and replaces the rest with `_`.
- InputRules.AllowedUpload: `str.lower()` is modelled on ASCII letters only. The verdict is the same, because no other character lower-cases to `.`, `j`, `p`, `g`, `e` or `n`.

=== FILE: care_forms.dfy ===
/**
  The WTForms classes of forms.py.  A `SelectField` accepts exactly the
  values of its choice list, compared case-sensitively; `DataRequired`
  rejects a missing or blank value; a field without validators accepts
  anything.  These forms are separate from the forms app.py defines for
  itself, whose choice values are lower case.
*/
module CareForms {
  import opened Text
  import DailyLogs

  const IntakeLevels: seq<string> := ["25%", "50%", "75%", "100%", "Ensure", "Other"]
  const BowelSizes: seq<string> := ["Small", "Medium", "Large"]
  const BowelConsistencies: seq<string> := ["Soft", "Medium", "Hard"]
  const UrineOutputs: seq<string> := ["Yes", "No"]

  lemma ChoicesNonBlank()
    ensures NonBlankChoices(IntakeLevels) && NonBlankChoices(BowelSizes)
    ensures NonBlankChoices(BowelConsistencies) && NonBlankChoices(UrineOutputs)
  {
  }

  datatype FoodIntakeForm = FoodIntakeForm(mealType: string, intakeLevel: string, notes: string)
  datatype LiquidIntakeForm = LiquidIntakeForm(liquid: string, amount: string)
  datatype BowelMovementForm = BowelMovementForm(size: string, consistency: string)
  datatype UrineOutputForm = UrineOutputForm(output: string)

  /** `meal_type` is required free text and `intake_level` one of the six
      levels; `notes` has no validator. */
  predicate FoodIntakeValid(f: FoodIntakeForm) {
    Required(f.mealType) && Choice(f.intakeLevel, IntakeLevels)
  }

  predicate LiquidIntakeValid(f: LiquidIntakeForm) {
    Required(f.liquid) && Required(f.amount)
  }

  predicate BowelMovementValid(f: BowelMovementForm) {
    Choice(f.size, BowelSizes) && Choice(f.consistency, BowelConsistencies)
  }

  predicate UrineOutputValid(f: UrineOutputForm) {
    Choice(f.output, UrineOutputs)
  }

  /** The notes field never decides validity, whether the level is `Other`
      or not, and any non-blank meal text is accepted. */
  lemma FoodNotesFree(f: FoodIntakeForm, notes: string)
    ensures FoodIntakeValid(f) <==> FoodIntakeValid(f.(notes := notes))
    ensures FoodIntakeValid(f) <==> (exists i :: 0 <= i < |f.mealType| && !IsSpace(f.mealType[i]))
                                    && f.intakeLevel in IntakeLevels
  {
    RequiredIffNonSpace(f.mealType);
    ChoicesNonBlank();
    ChoiceIsMembership(f.intakeLevel, IntakeLevels);
  }

  /** A blank liquid type or amount is refused; the fields are otherwise free. */
  lemma LiquidRequired(f: LiquidIntakeForm)
    ensures LiquidIntakeValid(f) <==> (exists i :: 0 <= i < |f.liquid| && !IsSpace(f.liquid[i]))
                                      && (exists i :: 0 <= i < |f.amount| && !IsSpace(f.amount[i]))
  {
    RequiredIffNonSpace(f.liquid);
    RequiredIffNonSpace(f.amount);
  }

  /** Every listed value, in its own spelling, is accepted. */
  lemma ListedAccepted(v: string)
    ensures v in BowelSizes ==> Choice(v, BowelSizes)
    ensures v in BowelConsistencies ==> Choice(v, BowelConsistencies)
    ensures v in UrineOutputs ==> Choice(v, UrineOutputs)
    ensures v in IntakeLevels ==> Choice(v, IntakeLevels)
  {
    ChoicesNonBlank();
    ChoiceIsMembership(v, BowelSizes);
    ChoiceIsMembership(v, BowelConsistencies);
    ChoiceIsMembership(v, UrineOutputs);
    ChoiceIsMembership(v, IntakeLevels);
  }

  /** The values these forms accept and the values app.py's own checks accept
      never meet: a size, consistency or urine output valid here is refused
      by the daily-log page, and the reverse. */
  lemma DisjointFromAppChecks(v: string)
    ensures Choice(v, BowelSizes) ==> v !in DailyLogs.BowelSizes
    ensures Choice(v, BowelConsistencies) ==> v !in DailyLogs.BowelConsistencies
    ensures Choice(v, UrineOutputs) ==> v !in DailyLogs.UrineOutputs
  {
    DisjointSpellings(v);
  }

  lemma DisjointSpellings(v: string)
    ensures !(v in BowelSizes && v in DailyLogs.BowelSizes)
    ensures !(v in BowelConsistencies && v in DailyLogs.BowelConsistencies)
    ensures !(v in UrineOutputs && v in DailyLogs.UrineOutputs)
  {
  }
}

=== FILE: daily_logs.dfy ===
/**
  The daily-log page of one resident (`daily_logs`, app.py:627-772): which
  meals still lack a food-intake entry for the day, and what a submitted
  food, liquid, bowel or urine form adds to the store.  Each submission
  inserts a single row followed by one audit entry.
*/
module DailyLogs {
  import opened Maybe
  import opened Text
  import opened Dates
  import opened Records
  import opened Sanitize

  /** The day a log page shows and the days its previous/next links point to. */
  datatype Page = Page(day: Date, prev: Date, next: Date)

  /** Reads the page's `date` argument (today when absent).  `strptime` has no
      `try` around it here, so a malformed date is a server error (`None`), as
      is a day whose neighbour falls outside years 1-9999. */
  function LogPage(dateArg: Option<string>, today: Date): (r: Option<Page>)
    ensures r.Some? ==> Ordinal(r.value.prev) + 1 == Ordinal(r.value.day)
                        && Ordinal(r.value.next) == Ordinal(r.value.day) + 1
    ensures r.Some? ==> ParseIso(dateArg.GetOr(IsoFormat(today))) == Some(r.value.day)
    ensures r.None? <==> match ParseIso(dateArg.GetOr(IsoFormat(today)))
                         case None => true
                         case Some(d) => Ordinal(d) == 1 || Ordinal(d) == MaxOrdinal
  {
    match ParseIso(dateArg.GetOr(IsoFormat(today)))
    case None => None
    case Some(d) =>
      OrdinalRange(d);
      match (AddDays(d, -1), AddDays(d, 1))
      case (Some(p), Some(n)) => Some(Page(d, p, n))
      case _ => None
  }

  /** Following the "next" link and then the "previous" link returns to the
      page one started from. */
  lemma LogPageLinks(dateArg: Option<string>, today: Date)
    ensures LogPage(dateArg, today).Some? ==>
            var p := LogPage(dateArg, today).value;
            LogPage(Some(IsoFormat(p.next)), today).Some? ==>
              LogPage(Some(IsoFormat(LogPage(Some(IsoFormat(p.next)), today).value.prev)), today) == Some(p)
  {
    if LogPage(dateArg, today).None? { return; }
    var p := LogPage(dateArg, today).value;
    ParseIsoFormat(p.next);
    var q := LogPage(Some(IsoFormat(p.next)), today);
    if q.Some? {
      OrdinalOrder(q.value.prev, p.day);
      ParseIsoFormat(p.day);
      OrdinalOrder(LogPage(Some(IsoFormat(p.day)), today).value.next, p.next);
      OrdinalOrder(LogPage(Some(IsoFormat(p.day)), today).value.prev, p.prev);
    }
  }

  /** The rows the page reads and writes. */
  datatype LogStore = LogStore(
    food: seq<FoodIntake>,
    liquid: seq<LiquidIntake>,
    bowel: seq<BowelMovement>,
    urine: seq<UrineOutput>,
    audit: seq<AuditLog>)

  datatype User = User(id: nat, role: string)

  /** `current_user.role in ['admin', 'caregiver']`. */
  predicate MayLog(role: string) {
    role in ["admin", "caregiver"]
  }

  /** The choice values of app.py's own forms (app.py:205-241), which are
      also the values its explicit checks accept (app.py:665, 710-711, 736). */
  const MealTypes: seq<string> := ["breakfast", "lunch", "dinner"]
  const BowelSizes: seq<string> := ["small", "medium", "large"]
  const BowelConsistencies: seq<string> := ["soft", "medium", "hard"]
  const UrineOutputs: seq<string> := ["yes", "no", "no output"]

  /** One submitted form: the button pressed and its fields as typed. */
  datatype LogPost =
    | AddFood(mealType: string, description: Option<string>)
    | AddLiquid(time: string, liquidType: Option<string>, amount: Option<string>)
    | AddBowel(time: string, size: string, consistency: string)
    | AddUrine(time: string, output: string)

  /** WTForms `Length(max=n)`, under which a missing value has length 0. */
  predicate LengthAtMost(v: Option<string>, n: nat) {
    v.None? || |v.value| <= n
  }

  /** The field validators of the submitted form (app.py:213-239): a
      `SelectField` with `DataRequired` for the meal type, size, consistency
      and output, `DataRequired` on every `time`, `Length(max=50)` on the
      liquid type and amount, and nothing on the description. */
  predicate FormValidates(post: LogPost) {
    match post
    case AddFood(mealType, _) => Choice(mealType, MealTypes)
    case AddLiquid(time, liquidType, amount) =>
      Required(time) && LengthAtMost(liquidType, 50) && LengthAtMost(amount, 50)
    case AddBowel(time, size, consistency) =>
      Required(time) && Choice(size, BowelSizes) && Choice(consistency, BowelConsistencies)
    case AddUrine(time, output) => Required(time) && Choice(output, UrineOutputs)
  }

  /** The lower-case choice lists have no blank entry, so their select fields
      accept exactly the listed values. */
  lemma FormValidatesIff(post: LogPost)
    ensures post.AddFood? ==> (FormValidates(post) <==> post.mealType in MealTypes)
    ensures post.AddLiquid? ==>
              (FormValidates(post) <==> Required(post.time)
                                        && LengthAtMost(post.liquidType, 50) && LengthAtMost(post.amount, 50))
    ensures post.AddBowel? ==>
              (FormValidates(post) <==> Required(post.time)
                                        && post.size in BowelSizes && post.consistency in BowelConsistencies)
    ensures post.AddUrine? ==> (FormValidates(post) <==> Required(post.time) && post.output in UrineOutputs)
  {
    assert NonBlankChoices(MealTypes) && NonBlankChoices(BowelSizes);
    assert NonBlankChoices(BowelConsistencies) && NonBlankChoices(UrineOutputs);
    match post
    case AddFood(m, _) => ChoiceIsMembership(m, MealTypes);
    case AddLiquid(_, _, _) =>
    case AddBowel(_, size, consistency) =>
      ChoiceIsMembership(size, BowelSizes);
      ChoiceIsMembership(consistency, BowelConsistencies);
    case AddUrine(_, output) => ChoiceIsMembership(output, UrineOutputs);
  }

  /** What the user sees after the POST: a success or refusal flash, a plain
      redirect when no branch handled the form, or a server error when
      `strptime` raised on the page's date or on the time field. */
  datatype Outcome = Saved(message: string) | Refused(message: string) | NotHandled | ServerError | NotFound

  /** True when `after` is `before` with exactly one row of one table and one
      audit entry added. */
  predicate OneEntryAdded(before: LogStore, after: LogStore) {
    && |after.audit| == |before.audit| + 1
    && after.audit[..|before.audit|] == before.audit
    && (|after.food| + |after.liquid| + |after.bowel| + |after.urine|
        == |before.food| + |before.liquid| + |before.bowel| + |before.urine| + 1)
    && before.food <= after.food && before.liquid <= after.liquid
    && before.bowel <= after.bowel && before.urine <= after.urine
  }

  /** Whether a branch takes the submission: `validate_on_submit()` holds
      (a valid CSRF token and the field validators) and the user is an
      administrator or a caregiver. */
  predicate Handled(user: User, csrfValid: bool, post: LogPost) {
    csrfValid && FormValidates(post) && MayLog(user.role)
  }

  /** The POST to the daily-log page of `resident`.  The page's date and its
      neighbours are computed before the form is looked at, so a date that
      `LogPage` rejects is a server error whatever was posted.  The
      explicit value checks after validation are kept as written. */
  function PostDailyLog(store: LogStore, resident: Resident, dateArg: Option<string>, today: Date,
                        user: User, csrfValid: bool, post: LogPost): (r: (LogStore, Outcome))
    ensures LogPage(dateArg, today).None? ==> r == (store, ServerError)
    ensures r.1 == NotHandled <==> LogPage(dateArg, today).Some? && !Handled(user, csrfValid, post)
    ensures !r.1.Saved? ==> r.0 == store
    ensures r.1.Saved? ==> OneEntryAdded(store, r.0)
    ensures r.1.Saved? ==> Handled(user, csrfValid, post)
    ensures r.1.Saved? ==> r.0.audit[|store.audit|].userId == user.id
  {
    match LogPage(dateArg, today)
    case None => (store, ServerError)
    case Some(page) =>
      if !Handled(user, csrfValid, post) then (store, NotHandled)
      else AddEntry(store, resident, page.day, user, post)
  }

  /** A POST to `/resident/<resident_id>/logs`: `get_or_404` looks the
      resident up first, so an unknown id is a 404 whatever was posted, and
      a row written is filed under that id. */
  function PostDailyLogById(store: LogStore, residents: seq<Resident>, residentId: nat, dateArg: Option<string>,
                            today: Date, user: User, csrfValid: bool, post: LogPost): (r: (LogStore, Outcome))
    ensures r.1.NotFound? <==> forall i :: 0 <= i < |residents| ==> residents[i].id != residentId
    ensures r.1.NotFound? ==> r.0 == store
    ensures !r.1.NotFound? ==>
              exists resident :: resident in residents && resident.id == residentId
                && r == PostDailyLog(store, resident, dateArg, today, user, csrfValid, post)
  {
    match FindResident(residents, residentId)
    case None => (store, NotFound)
    case Some(resident) => PostDailyLog(store, resident, dateArg, today, user, csrfValid, post)
  }

  /** The branch of `daily_logs` that a validated form reaches, on the page's
      `day`.  The value checks that follow validation are kept as written;
      the select fields have already confined the values to the same lists,
      so they never refuse. */
  function AddEntry(store: LogStore, resident: Resident, day: Date, user: User, post: LogPost)
    : (r: (LogStore, Outcome))
    ensures !r.1.NotHandled?
    ensures FormValidates(post) ==> !r.1.Refused?
    ensures r.1.ServerError? <==> !post.AddFood? && ParseClock(post.time).None?
    ensures FormValidates(post) ==> (r.1.Saved? <==> post.AddFood? || ParseClock(post.time).Some?)
    ensures !r.1.Saved? ==> r.0 == store
    ensures r.1.Saved? ==> OneEntryAdded(store, r.0) && r.0.audit[|store.audit|].userId == user.id
  {
    var audited := Audited(store, user, AuditAction(post, resident));
    match post
    case AddFood(mealType, description) => SaveFood(store, audited, resident, day, mealType, description)
    case AddLiquid(time, liquidType, amount) => SaveLiquid(store, audited, resident, day, time, liquidType, amount)
    case AddBowel(time, size, consistency) => SaveBowel(store, audited, resident, day, time, size, consistency)
    case AddUrine(time, output) => SaveUrine(store, audited, resident, day, time, output)
  }

  /** The food branch: the meal type is checked once more, and the row
      holds the sanitized description. */
  function SaveFood(store: LogStore, audited: LogStore, resident: Resident, day: Date,
                   mealType: string, description: Option<string>): (r: (LogStore, Outcome))
    requires OneAudit(store, audited)
    ensures !r.1.NotHandled?
    ensures !r.1.ServerError?
    ensures r.1.Refused? <==> mealType !in MealTypes
    ensures !r.1.Saved? ==> r.0 == store
    ensures r.1.Saved? ==> OneEntryAdded(store, r.0) && r.0.audit == audited.audit
    ensures r.1.Saved? ==> exists m: Meal :: MealName(m) == mealType
                             && r.0.food == store.food + [FoodIntake(resident.id, day, m, SanitizeInput(description))]
  {
    MealTypesAreMeals(mealType);
    match MealFromName(mealType)
    case None => (store, Refused("Invalid meal type"))
    case Some(meal) =>
      assert MealName(meal) == mealType;
      (audited.(food := store.food + [FoodIntake(resident.id, day, meal, SanitizeInput(description))]),
       Saved("Food intake added successfully."))
  }

  /** The liquid branch: the time must parse, and type and amount are sanitized. */
  function SaveLiquid(store: LogStore, audited: LogStore, resident: Resident, day: Date,
                     time: string, liquidType: Option<string>, amount: Option<string>): (r: (LogStore, Outcome))
    requires OneAudit(store, audited)
    ensures !r.1.Refused? && !r.1.NotHandled?
    ensures r.1.ServerError? <==> ParseClock(time).None?
    ensures !r.1.Saved? ==> r.0 == store
    ensures r.1.Saved? ==> OneEntryAdded(store, r.0) && r.0.audit == audited.audit
    ensures r.1.Saved? ==> r.0.liquid == store.liquid + [LiquidIntake(resident.id, day, ParseClock(time).value,
                                                                      SanitizeInput(liquidType), SanitizeInput(amount))]
  {
    match ParseClock(time)
    case None => (store, ServerError)
    case Some(t) =>
      (audited.(liquid := store.liquid + [LiquidIntake(resident.id, day, t, SanitizeInput(liquidType), SanitizeInput(amount))]),
       Saved("Liquid intake added successfully."))
  }

  /** The bowel branch: the time must parse, and size and consistency are checked once more. */
  function SaveBowel(store: LogStore, audited: LogStore, resident: Resident, day: Date,
                    time: string, size: string, consistency: string): (r: (LogStore, Outcome))
    requires OneAudit(store, audited)
    ensures !r.1.NotHandled?
    ensures r.1.ServerError? <==> ParseClock(time).None?
    ensures r.1.Refused? <==> ParseClock(time).Some? && (size !in BowelSizes || consistency !in BowelConsistencies)
    ensures !r.1.Saved? ==> r.0 == store
    ensures r.1.Saved? ==> OneEntryAdded(store, r.0) && r.0.audit == audited.audit
  {
    match ParseClock(time)
    case None => (store, ServerError)
    case Some(t) =>
      if size !in BowelSizes || consistency !in BowelConsistencies then
        (store, Refused("Invalid bowel movement data"))
      else
        (audited.(bowel := store.bowel + [BowelMovement(resident.id, day, t, size, consistency)]),
         Saved("Bowel movement added successfully."))
  }

  /** The urine branch: the time must parse, and the output is checked once more. */
  function SaveUrine(store: LogStore, audited: LogStore, resident: Resident, day: Date,
                    time: string, output: string): (r: (LogStore, Outcome))
    requires OneAudit(store, audited)
    ensures !r.1.NotHandled?
    ensures r.1.ServerError? <==> ParseClock(time).None?
    ensures r.1.Refused? <==> ParseClock(time).Some? && output !in UrineOutputs
    ensures !r.1.Saved? ==> r.0 == store
    ensures r.1.Saved? ==> OneEntryAdded(store, r.0) && r.0.audit == audited.audit
  {
    match ParseClock(time)
    case None => (store, ServerError)
    case Some(t) =>
      if output !in UrineOutputs then
        (store, Refused("Invalid urine output data"))
      else
        (audited.(urine := store.urine + [UrineOutput(resident.id, day, t, output)]),
         Saved("Urine output added successfully."))
  }

  /** `audited` is `store` with one audit entry appended and no table changed. */
  predicate OneAudit(store: LogStore, audited: LogStore) {
    && |audited.audit| == |store.audit| + 1 && audited.audit[..|store.audit|] == store.audit
    && audited.food == store.food && audited.liquid == store.liquid
    && audited.bowel == store.bowel && audited.urine == store.urine
  }

  /** The store with one audit entry by `user` appended; no table changes. */
  function Audited(store: LogStore, user: User, action: string): (r: LogStore)
    ensures |r.audit| == |store.audit| + 1 && r.audit[..|store.audit|] == store.audit
    ensures r.audit[|store.audit|] == AuditLog(user.id, action)
    ensures r.food == store.food && r.liquid == store.liquid && r.bowel == store.bowel && r.urine == store.urine
  {
    store.(audit := store.audit + [AuditLog(user.id, action)])
  }

  /** The audit text: what was added, then the resident's name. */
  function AuditAction(post: LogPost, resident: Resident): (r: string)
    ensures |r| > |resident.name| && r[|r| - |resident.name|..] == resident.name
  {
    var what :=
      match post
      case AddFood(_, _) => "Added food intake for "
      case AddLiquid(_, _, _) => "Added liquid intake for "
      case AddBowel(_, _, _) => "Added bowel movement for "
      case AddUrine(_, _) => "Added urine output for ";
    what + resident.name
  }

  /** The three choice values are the three meal names. */
  lemma MealTypesAreMeals(s: string)
    ensures s in MealTypes <==> MealFromName(s).Some?
  {
  }

  /** Once the form has validated, the page's own value checks never refuse:
      the select fields already confined the values to the same lists. */
  lemma ValidatedNeverRefused(store: LogStore, resident: Resident, dateArg: Option<string>, today: Date,
                              user: User, csrfValid: bool, post: LogPost)
    ensures !PostDailyLog(store, resident, dateArg, today, user, csrfValid, post).1.Refused?
  {
  }

  /** A bowel-movement row is written exactly when the page's date is
      accepted, the form is handled and its time parses; the row is dated
      with the page's day, and no other table changes. */
  lemma BowelWrittenIff(store: LogStore, resident: Resident, dateArg: Option<string>, today: Date, user: User,
                        csrfValid: bool, time: string, size: string, consistency: string)
    ensures var r := PostDailyLog(store, resident, dateArg, today, user, csrfValid, AddBowel(time, size, consistency));
            && (r.0 != store
                <==> LogPage(dateArg, today).Some? && csrfValid && MayLog(user.role) && Required(time)
                     && size in BowelSizes && consistency in BowelConsistencies && ParseClock(time).Some?)
            && (r.0 != store ==>
                  r.0.bowel == store.bowel
                               + [BowelMovement(resident.id, LogPage(dateArg, today).value.day,
                                                ParseClock(time).value, size, consistency)]
                  && r.0.food == store.food && r.0.liquid == store.liquid && r.0.urine == store.urine)
  {
    var r := PostDailyLog(store, resident, dateArg, today, user, csrfValid, AddBowel(time, size, consistency));
    FormValidatesIff(AddBowel(time, size, consistency));
    if r.1.Saved? {
      assert |r.0.audit| != |store.audit|;
    }
  }

  /** A liquid-intake row is written exactly when the page's date is
      accepted, the form is handled and its time parses; the row holds the
      page's day, the parsed time and the sanitized type and amount, and no
      other table changes. */
  lemma LiquidWrittenIff(store: LogStore, resident: Resident, dateArg: Option<string>, today: Date, user: User,
                         csrfValid: bool, time: string, liquidType: Option<string>, amount: Option<string>)
    ensures var r := PostDailyLog(store, resident, dateArg, today, user, csrfValid, AddLiquid(time, liquidType, amount));
            && (r.0 != store
                <==> LogPage(dateArg, today).Some? && csrfValid && MayLog(user.role) && Required(time)
                     && LengthAtMost(liquidType, 50) && LengthAtMost(amount, 50) && ParseClock(time).Some?)
            && (r.0 != store ==>
                  r.0.liquid == store.liquid
                                + [LiquidIntake(resident.id, LogPage(dateArg, today).value.day,
                                                ParseClock(time).value, SanitizeInput(liquidType), SanitizeInput(amount))]
                  && r.0.food == store.food && r.0.bowel == store.bowel && r.0.urine == store.urine)
  {
    var r := PostDailyLog(store, resident, dateArg, today, user, csrfValid, AddLiquid(time, liquidType, amount));
    FormValidatesIff(AddLiquid(time, liquidType, amount));
    if r.1.Saved? {
      assert |r.0.audit| != |store.audit|;
    }
  }

  /** A urine-output row is written exactly when the page's date is
      accepted, the form is handled and its time parses. */
  lemma UrineWrittenIff(store: LogStore, resident: Resident, dateArg: Option<string>, today: Date, user: User,
                        csrfValid: bool, time: string, output: string)
    ensures var r := PostDailyLog(store, resident, dateArg, today, user, csrfValid, AddUrine(time, output));
            && (r.0 != store
                <==> LogPage(dateArg, today).Some? && csrfValid && MayLog(user.role) && Required(time)
                     && output in UrineOutputs && ParseClock(time).Some?)
            && (r.0 != store ==>
                  r.0.urine == store.urine
                               + [UrineOutput(resident.id, LogPage(dateArg, today).value.day,
                                              ParseClock(time).value, output)]
                  && r.0.food == store.food && r.0.liquid == store.liquid && r.0.bowel == store.bowel)
  {
    var r := PostDailyLog(store, resident, dateArg, today, user, csrfValid, AddUrine(time, output));
    FormValidatesIff(AddUrine(time, output));
    if r.1.Saved? {
      assert |r.0.audit| != |store.audit|;
    }
  }

  /** A food-intake row is written exactly when the page's date is accepted,
      the form is handled and the meal type is one of the three meal names;
      the row carries the page's day, the meal and the sanitized
      description. */
  lemma FoodWrittenIff(store: LogStore, resident: Resident, dateArg: Option<string>, today: Date, user: User,
                       csrfValid: bool, mealType: string, description: Option<string>)
    ensures var r := PostDailyLog(store, resident, dateArg, today, user, csrfValid, AddFood(mealType, description));
            && (r.0 != store
                <==> LogPage(dateArg, today).Some? && csrfValid && MayLog(user.role) && mealType in MealTypes)
            && (r.0 != store ==>
                  exists m: Meal :: MealName(m) == mealType
                    && r.0.food == store.food + [FoodIntake(resident.id, LogPage(dateArg, today).value.day, m,
                                                            SanitizeInput(description))])
  {
    var r := PostDailyLog(store, resident, dateArg, today, user, csrfValid, AddFood(mealType, description));
    FormValidatesIff(AddFood(mealType, description));
    MealTypesAreMeals(mealType);
    if r.1.Saved? {
      assert |r.0.audit| != |store.audit|;
      var m := MealFromName(mealType).value;
      assert MealName(m) == mealType;
    }
  }

  // ---------------------------------------------------------------------
  // Missing meals

  /** Some food intake of the resident on `day` has this meal. */
  predicate MealLogged(food: seq<FoodIntake>, residentId: nat, day: Date, meal: Meal) {
    exists i :: 0 <= i < |food| && food[i].residentId == residentId && food[i].date == day && food[i].meal == meal
  }

  /** `missing_logs` (app.py:643-648): the meals, in breakfast-lunch-dinner
      order, with no food intake logged for the resident on `day`. */
  function MissingMeals(food: seq<FoodIntake>, residentId: nat, day: Date): (r: seq<Meal>)
    ensures forall m: Meal :: m in r <==> !MealLogged(food, residentId, day, m)
    ensures forall i, j :: 0 <= i < j < |r| ==> MealIndex(r[i]) < MealIndex(r[j])
    ensures |r| <= |Meals|
  {
    var b := if MealLogged(food, residentId, day, Breakfast) then [] else [Breakfast];
    var l := if MealLogged(food, residentId, day, Lunch) then [] else [Lunch];
    var d := if MealLogged(food, residentId, day, Dinner) then [] else [Dinner];
    assert forall m: Meal :: m in b + l + d <==> m in b || m in l || m in d;
    assert forall m: Meal :: m in b + l + d <==> !MealLogged(food, residentId, day, m) by {
      forall m: Meal ensures m in b + l + d <==> !MealLogged(food, residentId, day, m) {
        assert m == Breakfast || m == Lunch || m == Dinner;
      }
    }
    b + l + d
  }

  function MissingLogMessage(meal: Meal): string {
    "Missing " + MealName(meal) + " log"
  }

  /** Logging a meal's food intake removes that meal from the page's missing
      list and leaves the verdict on every other meal as it was. */
  lemma FoodPostClearsMissingMeal(store: LogStore, resident: Resident, dateArg: Option<string>, today: Date,
                                  user: User, description: Option<string>, meal: Meal)
    requires MayLog(user.role)
    ensures LogPage(dateArg, today).Some? ==>
            var day := LogPage(dateArg, today).value.day;
            var after := PostDailyLog(store, resident, dateArg, today, user, true, AddFood(MealName(meal), description)).0;
            && meal !in MissingMeals(after.food, resident.id, day)
            && forall m: Meal :: m != meal ==>
                 (m in MissingMeals(after.food, resident.id, day) <==> m in MissingMeals(store.food, resident.id, day))
  {
    if LogPage(dateArg, today).None? { return; }
    var day := LogPage(dateArg, today).value.day;
    var after := PostDailyLog(store, resident, dateArg, today, user, true, AddFood(MealName(meal), description)).0;
    FoodWrittenIff(store, resident, dateArg, today, user, true, MealName(meal), description);
    assert MealName(meal) in MealTypes by { MealTypesAreMeals(MealName(meal)); }
    var m0: Meal :| MealName(m0) == MealName(meal)
                    && after.food == store.food + [FoodIntake(resident.id, day, m0, SanitizeInput(description))];
    assert m0 == meal;
    AppendMealRow(store.food, FoodIntake(resident.id, day, meal, SanitizeInput(description)));
  }

  /** Appending a food row logs its own meal for its resident and day, and
      changes whether any other meal is logged for no resident and no day. */
  lemma AppendMealRow(food: seq<FoodIntake>, row: FoodIntake)
    ensures MealLogged(food + [row], row.residentId, row.date, row.meal)
    ensures forall rid, day, m: Meal :: m != row.meal ==>
              (MealLogged(food + [row], rid, day, m) <==> MealLogged(food, rid, day, m))
  {
    var after := food + [row];
    assert after[|food|] == row;
    forall rid, day, m: Meal | m != row.meal
      ensures MealLogged(after, rid, day, m) <==> MealLogged(food, rid, day, m)
    {
      if MealLogged(food, rid, day, m) {
        var i :| 0 <= i < |food| && food[i].residentId == rid && food[i].date == day && food[i].meal == m;
        assert after[i] == food[i];
      }
    }
  }
}

=== FILE: dates.dfy ===
/**
  Python's `datetime.date` as the application uses it: valid calendar days,
  their ordering, `toordinal()` (which gives `date + timedelta(days=n)` its
  meaning), `isoformat()` / `strftime('%Y-%m-%d')`, and the subset of
  `datetime.strptime` the application calls (`'%Y-%m-%d'` and `'%H:%M'`).
*/
module Dates {
  import opened Maybe
  import opened Text

  /** A year-month-day triple, before any validity check. */
  datatype Ymd = Ymd(year: int, month: int, day: int)

  const MinYear := 1
  const MaxYear := 9999

  predicate IsLeap(y: int) {
    y % 4 == 0 && (y % 100 != 0 || y % 400 == 0)
  }

  function YearLength(y: int): int {
    if IsLeap(y) then 366 else 365
  }

  function DaysInMonth(y: int, m: int): int
    requires 1 <= m <= 12
  {
    if m == 2 then (if IsLeap(y) then 29 else 28)
    else if m == 4 || m == 6 || m == 9 || m == 11 then 30
    else 31
  }

  /** What `date(year, month, day)` accepts without raising `ValueError`. */
  predicate ValidYmd(d: Ymd) {
    && MinYear <= d.year <= MaxYear
    && 1 <= d.month <= 12
    && 1 <= d.day <= DaysInMonth(d.year, d.month)
  }

  /** A `datetime.date` value: only valid calendar days exist. */
  type Date = d: Ymd | ValidYmd(d) witness Ymd(1, 1, 1)

  /** Python's `date < date`, which compares `(year, month, day)` tuples. */
  predicate Before(a: Date, b: Date) {
    || a.year < b.year
    || (a.year == b.year && a.month < b.month)
    || (a.year == b.year && a.month == b.month && a.day < b.day)
  }

  // ---------------------------------------------------------------------
  // Day numbers

  function DaysBeforeYear(y: int): int {
    var k := y - 1;
    k * 365 + k / 4 - k / 100 + k / 400
  }

  function DaysBeforeMonth(y: int, m: int): int
    requires 1 <= m <= 12
  {
    var table := [0, 31, 59, 90, 120, 151, 181, 212, 243, 273, 304, 334];
    table[m - 1] + (if m > 2 && IsLeap(y) then 1 else 0)
  }

  /** `date.toordinal()`: 0001-01-01 is day 1, and `d + timedelta(days=n)` is
      the date whose ordinal is `Ordinal(d) + n`. */
  function Ordinal(d: Date): int {
    DaysBeforeYear(d.year) + DaysBeforeMonth(d.year, d.month) + d.day
  }

  /** Moving one day forward crosses a multiple of `c` exactly when the new
      day is one. */
  lemma DivStep(k: int, c: int)
    requires c == 4 || c == 100 || c == 400
    ensures (k + 1) / c == k / c + (if (k + 1) % c == 0 then 1 else 0)
  {
    var q, r := k / c, k % c;
    assert k == c * q + r;
    if r == c - 1 {
      assert k + 1 == c * (q + 1);
    } else {
      assert k + 1 == c * q + (r + 1);
    }
  }

  lemma YearStep(y: int)
    ensures DaysBeforeYear(y + 1) == DaysBeforeYear(y) + YearLength(y)
  {
    DivStep(y - 1, 4);
    DivStep(y - 1, 100);
    DivStep(y - 1, 400);
  }

  lemma {:induction false} DaysBeforeYearMonotone(y1: int, y2: int)
    requires y1 <= y2
    ensures DaysBeforeYear(y1) + (y2 - y1) * 365 <= DaysBeforeYear(y2)
    decreases y2 - y1
  {
    if y1 < y2 {
      YearStep(y1);
      DaysBeforeYearMonotone(y1 + 1, y2);
    }
  }

  lemma MonthStep(y: int, m: int)
    requires 1 <= m <= 12
    ensures DaysBeforeMonth(y, m) + DaysInMonth(y, m)
            == if m == 12 then YearLength(y) else DaysBeforeMonth(y, m + 1)
  {
  }

  /** The days of one year occupy the ordinals just after `DaysBeforeYear`. */
  lemma OrdinalWithinYear(d: Date)
    ensures DaysBeforeYear(d.year) < Ordinal(d) <= DaysBeforeYear(d.year) + YearLength(d.year)
  {
    MonthStep(d.year, d.month);
    if d.month < 12 {
      MonthsBefore(d.year, d.month + 1, 12);
      MonthStep(d.year, 12);
    }
  }

  lemma MonthsBefore(y: int, m1: int, m2: int)
    requires 1 <= m1 <= m2 <= 12
    ensures DaysBeforeMonth(y, m1) <= DaysBeforeMonth(y, m2)
  {
  }

  /** Python's tuple order on dates agrees with the order of their ordinals,
      and two dates are equal exactly when their ordinals are. */
  lemma OrdinalOrder(a: Date, b: Date)
    ensures Before(a, b) <==> Ordinal(a) < Ordinal(b)
    ensures a == b <==> Ordinal(a) == Ordinal(b)
  {
    if Before(a, b) {
      BeforeOrdinal(a, b);
    } else if a != b {
      assert Before(b, a);
      BeforeOrdinal(b, a);
    }
  }

  lemma BeforeOrdinal(a: Date, b: Date)
    requires Before(a, b)
    ensures Ordinal(a) < Ordinal(b)
  {
    if a.year < b.year {
      OrdinalWithinYear(a);
      OrdinalWithinYear(b);
      YearStep(a.year);
      DaysBeforeYearMonotone(a.year + 1, b.year);
    } else if a.month < b.month {
      MonthStep(a.year, a.month);
      MonthsBefore(a.year, a.month + 1, b.month);
    }
  }

  // ---------------------------------------------------------------------
  // From day numbers back to dates

  /** The ordinal of 9999-12-31, the last day `datetime.date` can hold. */
  const MaxOrdinal := DaysBeforeYear(MaxYear + 1)

  /** Every date's ordinal lies in `1..MaxOrdinal`. */
  lemma OrdinalRange(d: Date)
    ensures 1 <= Ordinal(d) <= MaxOrdinal
  {
    OrdinalWithinYear(d);
    DaysBeforeYearMonotone(1, d.year);
    YearStep(d.year);
    DaysBeforeYearMonotone(d.year + 1, MaxYear + 1);
  }

  /** The year, from `y` on, whose days contain ordinal `n`. */
  function YearOf(n: int, y: int): (r: int)
    requires MinYear <= y <= MaxYear && DaysBeforeYear(y) < n <= MaxOrdinal
    ensures y <= r <= MaxYear && DaysBeforeYear(r) < n <= DaysBeforeYear(r) + YearLength(r)
    decreases MaxYear - y
  {
    YearStep(y);
    if n <= DaysBeforeYear(y + 1) then y else YearOf(n, y + 1)
  }

  /** The month, from `m` on, holding day `r` of year `y`. */
  function MonthOf(y: int, r: int, m: int): (k: int)
    requires 1 <= m <= 12 && DaysBeforeMonth(y, m) < r <= YearLength(y)
    ensures m <= k <= 12 && DaysBeforeMonth(y, k) < r <= DaysBeforeMonth(y, k) + DaysInMonth(y, k)
    decreases 12 - m
  {
    MonthStep(y, m);
    if r <= DaysBeforeMonth(y, m) + DaysInMonth(y, m) then m else MonthOf(y, r, m + 1)
  }

  /** `date.fromordinal(n)`: the date whose ordinal is `n`. */
  function FromOrdinal(n: int): (d: Date)
    requires 1 <= n <= MaxOrdinal
    ensures Ordinal(d) == n
  {
    var y := YearOf(n, MinYear);
    var r := n - DaysBeforeYear(y);
    var m := MonthOf(y, r, 1);
    Ymd(y, m, r - DaysBeforeMonth(y, m))
  }

  /** `fromordinal` undoes `toordinal`. */
  lemma FromOrdinalOrdinal(d: Date)
    ensures 1 <= Ordinal(d) <= MaxOrdinal && FromOrdinal(Ordinal(d)) == d
  {
    OrdinalRange(d);
    OrdinalOrder(FromOrdinal(Ordinal(d)), d);
  }

  /** `d + timedelta(days=n)`, or `None` where Python raises `OverflowError`
      because the result would fall outside years 1-9999. */
  function AddDays(d: Date, n: int): (r: Option<Date>)
    ensures r.Some? <==> 1 <= Ordinal(d) + n <= MaxOrdinal
    ensures r.Some? ==> Ordinal(r.value) == Ordinal(d) + n
  {
    if 1 <= Ordinal(d) + n <= MaxOrdinal then Some(FromOrdinal(Ordinal(d) + n)) else None
  }

  /** Adding no days gives the same date back, and adding `a` then `b` days is
      adding `a + b` days whenever the intermediate date exists. */
  lemma AddDaysCompose(d: Date, a: int, b: int)
    ensures AddDays(d, 0) == Some(d)
    ensures AddDays(d, a).Some? ==> AddDays(AddDays(d, a).value, b) == AddDays(d, a + b)
  {
    FromOrdinalOrdinal(d);
    if AddDays(d, a).Some? {
      AddDaysThen(d, a, b);
    }
  }

  lemma AddDaysThen(d: Date, a: int, b: int)
    requires AddDays(d, a).Some?
    ensures AddDays(AddDays(d, a).value, b) == AddDays(d, a + b)
  {
    var x := AddDays(d, a).value;
    var k := Ordinal(d) + a;
    assert Ordinal(x) == k;
    assert AddDays(x, b) == (if 1 <= k + b <= MaxOrdinal then Some(FromOrdinal(k + b)) else None);
  }

  // ---------------------------------------------------------------------
  // Text forms

  /** `date.isoformat()`, which is also `str(date)` and, for the four-digit
      years `date` allows, `strftime('%Y-%m-%d')`. */
  function IsoFormat(d: Date): (r: string)
    ensures |r| == 10
    ensures forall i :: 0 <= i < |r| ==> IsAsciiDigit(r[i]) || r[i] == '-'
  {
    Digits4(d.year) + "-" + Digits2(d.month) + "-" + Digits2(d.day)
  }

  function MonthName(m: int): string
    requires 1 <= m <= 12
  {
    ["January", "February", "March", "April", "May", "June", "July",
     "August", "September", "October", "November", "December"][m - 1]
  }

  /** `strftime('%B %d, %Y')` in the C locale, e.g. `January 05, 1950`. */
  function LongFormat(d: Date): string {
    MonthName(d.month) + " " + Digits2(d.day) + ", " + Digits4(d.year)
  }

  /** A value read by one `strptime` directive and the index just after it. */
  datatype Field = Field(value: int, end: nat)

  /** `%m`, whose pattern is `1[0-2]|0[1-9]|[1-9]`: the first alternative that
      matches at `p` wins. */
  function MatchMonth(s: string, p: nat): (f: Option<Field>)
    ensures f.Some? ==> p < f.value.end <= |s| && 1 <= f.value.value <= 12
  {
    if p + 1 < |s| && s[p] == '1' && '0' <= s[p + 1] <= '2' then
      Some(Field(10 + DigitValue(s[p + 1]), p + 2))
    else if p + 1 < |s| && s[p] == '0' && '1' <= s[p + 1] <= '9' then
      Some(Field(DigitValue(s[p + 1]), p + 2))
    else if p < |s| && '1' <= s[p] <= '9' then
      Some(Field(DigitValue(s[p]), p + 1))
    else None
  }

  /** `%d`, whose pattern is `3[01]|[12]\d|0[1-9]|[1-9]| [1-9]`. */
  function MatchDay(s: string, p: nat): (f: Option<Field>)
    ensures f.Some? ==> p < f.value.end <= |s| && 1 <= f.value.value <= 31
  {
    if p + 1 < |s| && s[p] == '3' && '0' <= s[p + 1] <= '1' then
      Some(Field(30 + DigitValue(s[p + 1]), p + 2))
    else if p + 1 < |s| && '1' <= s[p] <= '2' && IsAsciiDigit(s[p + 1]) then
      Some(Field(10 * DigitValue(s[p]) + DigitValue(s[p + 1]), p + 2))
    else if p + 1 < |s| && s[p] == '0' && '1' <= s[p + 1] <= '9' then
      Some(Field(DigitValue(s[p + 1]), p + 2))
    else if p < |s| && '1' <= s[p] <= '9' then
      Some(Field(DigitValue(s[p]), p + 1))
    else if p + 1 < |s| && s[p] == ' ' && '1' <= s[p + 1] <= '9' then
      Some(Field(DigitValue(s[p + 1]), p + 2))
    else None
  }

  /** `datetime.strptime(s, '%Y-%m-%d').date()`, with `None` for every string
      on which it raises `ValueError`: `%Y` is exactly four digits, each
      directive takes the first alternative of its pattern, nothing may follow
      the day ("unconverted data remains"), and the fields must form a real
      date. */
  function ParseIso(s: string): (r: Option<Date>)
    ensures r.Some? ==> 8 <= |s| <= 10 && AllDigits(s[..4]) && r.value.year == DigitsValue(s[..4])
  {
    if |s| < 5 || !AllDigits(s[..4]) || s[4] != '-' then None
    else
      match MatchMonth(s, 5)
      case None => None
      case Some(m) =>
        if m.end >= |s| || s[m.end] != '-' then None
        else
          match MatchDay(s, m.end + 1)
          case None => None
          case Some(d) =>
            var ymd := Ymd(DigitsValue(s[..4]), m.value, d.value);
            if d.end == |s| && ValidYmd(ymd) then Some(ymd) else None
  }

  /** `strptime` reads back exactly the date `isoformat` wrote. */
  lemma ParseIsoFormat(d: Date)
    ensures ParseIso(IsoFormat(d)) == Some(d)
  {
    var s := IsoFormat(d);
    assert s[..4] == Digits4(d.year);
    Digits4RoundTrip(d.year);
    assert s[5..7] == Digits2(d.month);
    MatchMonthPadded(s, 5, d.month);
    assert s[8..10] == Digits2(d.day);
    MatchDayPadded(s, 8, d.day);
  }

  /** A zero-padded month is read whole. */
  lemma MatchMonthPadded(s: string, p: nat, m: int)
    requires 1 <= m <= 12 && p + 2 <= |s| && s[p..p + 2] == Digits2(m)
    ensures MatchMonth(s, p) == Some(Field(m, p + 2))
  {
    assert s[p] == DigitChar(m / 10) && s[p + 1] == DigitChar(m % 10);
  }

  /** A zero-padded day is read whole. */
  lemma MatchDayPadded(s: string, p: nat, d: int)
    requires 1 <= d <= 31 && p + 2 <= |s| && s[p..p + 2] == Digits2(d)
    ensures MatchDay(s, p) == Some(Field(d, p + 2))
  {
    assert s[p] == DigitChar(d / 10) && s[p + 1] == DigitChar(d % 10);
  }

  /** Distinct dates have distinct ISO texts. */
  lemma IsoFormatInjective(a: Date, b: Date)
    requires IsoFormat(a) == IsoFormat(b)
    ensures a == b
  {
    ParseIsoFormat(a);
    ParseIsoFormat(b);
  }

  // ---------------------------------------------------------------------
  // Times of day

  datatype Clock = Clock(hour: int, minute: int)

  /** `%H`, whose pattern is `2[0-3]|[0-1]\d|\d`. */
  function MatchHour(s: string, p: nat): (f: Option<Field>)
    ensures f.Some? ==> p < f.value.end <= |s| && 0 <= f.value.value <= 23
  {
    if p + 1 < |s| && s[p] == '2' && '0' <= s[p + 1] <= '3' then
      Some(Field(20 + DigitValue(s[p + 1]), p + 2))
    else if p + 1 < |s| && '0' <= s[p] <= '1' && IsAsciiDigit(s[p + 1]) then
      Some(Field(10 * DigitValue(s[p]) + DigitValue(s[p + 1]), p + 2))
    else if p < |s| && IsAsciiDigit(s[p]) then
      Some(Field(DigitValue(s[p]), p + 1))
    else None
  }

  /** `%M`, whose pattern is `[0-5]\d|\d`. */
  function MatchMinute(s: string, p: nat): (f: Option<Field>)
    ensures f.Some? ==> p < f.value.end <= |s| && 0 <= f.value.value <= 59
  {
    if p + 1 < |s| && '0' <= s[p] <= '5' && IsAsciiDigit(s[p + 1]) then
      Some(Field(10 * DigitValue(s[p]) + DigitValue(s[p + 1]), p + 2))
    else if p < |s| && IsAsciiDigit(s[p]) then
      Some(Field(DigitValue(s[p]), p + 1))
    else None
  }

  /** `datetime.strptime(s, '%H:%M').time()`, `None` where it raises. */
  function ParseClock(s: string): (r: Option<Clock>)
    ensures r.Some? ==> 0 <= r.value.hour < 24 && 0 <= r.value.minute < 60
    ensures r.Some? ==> 3 <= |s| <= 5 && Contains(s, ':')
  {
    match MatchHour(s, 0)
    case None => None
    case Some(h) =>
      if h.end >= |s| || s[h.end] != ':' then None
      else
        match MatchMinute(s, h.end + 1)
        case None => None
        case Some(m) => if m.end == |s| then Some(Clock(h.value, m.value)) else None
  }

  /** `'%02d:%02d' % (hour, minute)`, the way a time field is normally filled. */
  function ClockText(t: Clock): string
    requires 0 <= t.hour < 24 && 0 <= t.minute < 60
  {
    Digits2(t.hour) + ":" + Digits2(t.minute)
  }

  lemma ParseClockText(t: Clock)
    requires 0 <= t.hour < 24 && 0 <= t.minute < 60
    ensures ParseClock(ClockText(t)) == Some(t)
  {
    var s := ClockText(t);
    assert s[..2] == Digits2(t.hour);
    assert s[3..] == Digits2(t.minute);
  }
}

=== FILE: documents.dfy ===
/**
  The documents page of one resident (`documents`, app.py:865-936): the
  resident's documents and the expired ones among them, the upload of a new
  file and the deletion of a document.  Writing and removing the file on
  disk are left out: the model is told whether the save succeeded, the
  moment `datetime.now()` returned and the id the database gives a new row.
*/
module Documents {
  import opened Maybe
  import opened Text
  import opened Dates
  import opened Records
  import opened Seqs
  import opened Sanitize
  import opened InputRules
  import DailyLogs
  import HomeAlerts

  /** The rows the page reads and writes. */
  datatype DocStore = DocStore(docs: seq<Document>, audit: seq<AuditLog>)

  /** `id` is the table's primary key: no two documents share one. */
  predicate UniqueIds(docs: seq<Document>) {
    forall i, j :: 0 <= i < j < |docs| ==> docs[i].id != docs[j].id
  }

  // ---------------------------------------------------------------------
  // Listing

  /** `Document.query.filter_by(resident_id=resident_id).all()`. */
  function ResidentDocuments(docs: seq<Document>, residentId: nat): (r: seq<Document>)
    ensures forall d :: d in r <==> d in docs && d.residentId == residentId
  {
    var r := Filter(docs, (d: Document) => d.residentId == residentId);
    forall d ensures d in r <==> d in docs && d.residentId == residentId {
      FilterMembers(docs, (d: Document) => d.residentId == residentId, d);
    }
    r
  }

  /** `expired_documents`: the resident's documents with an expiration date
      strictly before today. */
  function ExpiredDocuments(docs: seq<Document>, residentId: nat, today: Date): (r: seq<Document>)
    ensures forall d :: d in r <==> d in docs && d.residentId == residentId
                                    && d.expiration.Some? && Before(d.expiration.value, today)
    ensures |r| <= |ResidentDocuments(docs, residentId)|
  {
    var mine := ResidentDocuments(docs, residentId);
    var r := Filter(mine, (d: Document) => HomeAlerts.Expired(d, today));
    forall d ensures d in r <==> d in mine && HomeAlerts.Expired(d, today) {
      FilterMembers(mine, (d: Document) => HomeAlerts.Expired(d, today), d);
    }
    r
  }

  /** The documents page and the home page agree on which documents are
      expired. */
  lemma ExpiredAgreesWithHome(docs: seq<Document>, resident: Resident, today: Date, d: Document)
    ensures d in ExpiredDocuments(docs, resident.id, today)
            <==> HomeAlerts.ExpiredDocument(resident, d) in HomeAlerts.DocumentAlerts(resident, docs, today)
  {
  }

  // ---------------------------------------------------------------------
  // Stored file names

  /** The value of `datetime.now()` at the upload. */
  datatype Moment = Moment(date: Date, hour: nat, minute: nat, second: nat)

  predicate ValidMoment(m: Moment) {
    m.hour < 24 && m.minute < 60 && m.second < 60
  }

  /** `now.strftime('%Y%m%d%H%M%S')`. */
  function Stamp(m: Moment): (r: string)
    requires ValidMoment(m)
    ensures |r| == 14 && AllDigits(r)
  {
    Digits4(m.date.year) + Digits2(m.date.month) + Digits2(m.date.day)
    + Digits2(m.hour) + Digits2(m.minute) + Digits2(m.second)
  }

  /** Two different moments, to the second, give two different stamps. */
  lemma StampInjective(a: Moment, b: Moment)
    requires ValidMoment(a) && ValidMoment(b)
    requires Stamp(a) == Stamp(b)
    ensures a == b
  {
    var s, t := Stamp(a), Stamp(b);
    assert s[..4] == Digits4(a.date.year) && t[..4] == Digits4(b.date.year);
    assert s[4..6] == Digits2(a.date.month) && t[4..6] == Digits2(b.date.month);
    assert s[6..8] == Digits2(a.date.day) && t[6..8] == Digits2(b.date.day);
    assert s[8..10] == Digits2(a.hour) && t[8..10] == Digits2(b.hour);
    assert s[10..12] == Digits2(a.minute) && t[10..12] == Digits2(b.minute);
    assert s[12..] == Digits2(a.second) && t[12..] == Digits2(b.second);
    Digits4RoundTrip(a.date.year);
    Digits4RoundTrip(b.date.year);
    Digits2RoundTrip(a.date.month);
    Digits2RoundTrip(b.date.month);
    Digits2RoundTrip(a.date.day);
    Digits2RoundTrip(b.date.day);
    Digits2RoundTrip(a.hour);
    Digits2RoundTrip(b.hour);
    Digits2RoundTrip(a.minute);
    Digits2RoundTrip(b.minute);
    Digits2RoundTrip(a.second);
    Digits2RoundTrip(b.second);
  }

  /** `f"{resident_id}_{stamp}_{file.filename}"`: the name the upload is
      saved under. */
  function StoredName(residentId: nat, now: Moment, filename: string): (r: string)
    requires ValidMoment(now)
    ensures |r| == |NatToString(residentId)| + 16 + |filename|
    ensures AllowedUpload(filename) ==> AllowedUpload(r)
  {
    var prefix := NatToString(residentId) + "_" + Stamp(now) + "_";
    var r := prefix + filename;
    PrefixKeepsAllowed(prefix, filename);
    r
  }

  /** Length of the longest prefix of `s` made of ASCII digits. */
  function LeadingDigits(s: string): (n: nat)
    ensures n <= |s| && AllDigits(s[..n])
    ensures n < |s| ==> !IsAsciiDigit(s[n])
  {
    if |s| > 0 && IsAsciiDigit(s[0]) then
      var n := 1 + LeadingDigits(s[1..]);
      assert forall i :: 1 <= i < n ==> s[..n][i] == s[1..][..n - 1][i - 1];
      n
    else 0
  }

  /** Reads a stored name back into the resident id, the time stamp and the
      uploaded file's own name. */
  function SplitStoredName(s: string): (r: Option<(nat, string, string)>)
    ensures r.Some? ==> AllDigits(r.value.1) && |r.value.1| == 14
  {
    var n := LeadingDigits(s);
    if 0 < n && n + 16 <= |s| && s[n] == '_' && AllDigits(s[n + 1..n + 15]) && s[n + 15] == '_' then
      Some((DigitsValue(s[..n]), s[n + 1..n + 15], s[n + 16..]))
    else None
  }

  /** A stored name gives back the resident, the stamp and the file name it
      was built from. */
  lemma SplitStoredNameRoundTrip(residentId: nat, now: Moment, filename: string)
    requires ValidMoment(now)
    ensures SplitStoredName(StoredName(residentId, now, filename)) == Some((residentId, Stamp(now), filename))
  {
    SplitParts(NatToString(residentId), Stamp(now), filename);
    NatToStringRoundTrip(residentId);
  }

  /** Splitting undoes the joining of a digit run, a 14-digit stamp and a
      file name. */
  lemma SplitParts(p: string, stamp: string, filename: string)
    requires |p| > 0 && AllDigits(p)
    requires |stamp| == 14 && AllDigits(stamp)
    ensures SplitStoredName(p + "_" + stamp + "_" + filename) == Some((DigitsValue(p), stamp, filename))
  {
    var tail := "_" + filename;
    var u := stamp + tail;
    var t := "_" + u;
    var s := p + t;
    JoinRight(p, "_", stamp, "_", filename);
    LeadingDigitsOf(p, t);
    var n := |p|;
    assert s[..n] == p;
    assert s[n..] == t;
    assert s[n] == '_';
    assert s[n + 1..] == u by { assert s[n + 1..] == t[1..]; }
    assert u[..14] == stamp && u[14] == '_' && u[15..] == filename;
    SliceAfter(s, n + 1, u, 0, 14);
    SliceAfter(s, n + 1, u, 15, |u|);
    assert s[n + 15] == '_';
  }

  lemma SliceAfter(s: string, k: nat, u: string, a: nat, b: nat)
    requires k <= |s| && s[k..] == u && a <= b <= |u|
    ensures s[k + a..k + b] == u[a..b]
  {
    forall i | 0 <= i < b - a
      ensures s[k + a..k + b][i] == u[a..b][i]
    {
      assert s[k..][a + i] == s[k + a + i];
    }
  }

  /** Uploads for two different residents, or at two different seconds, or
      of two differently named files, never share a stored name. */
  lemma StoredNameInjective(r1: nat, m1: Moment, f1: string, r2: nat, m2: Moment, f2: string)
    requires ValidMoment(m1) && ValidMoment(m2)
    requires StoredName(r1, m1, f1) == StoredName(r2, m2, f2)
    ensures r1 == r2 && m1 == m2 && f1 == f2
  {
    SplitStoredNameRoundTrip(r1, m1, f1);
    SplitStoredNameRoundTrip(r2, m2, f2);
    StampInjective(m1, m2);
  }

  lemma JoinRight(a: string, b: string, c: string, d: string, e: string)
    ensures a + b + c + d + e == a + (b + (c + (d + e)))
  {
  }

  lemma {:induction false} LeadingDigitsOf(p: string, rest: string)
    requires AllDigits(p)
    requires |rest| > 0 && !IsAsciiDigit(rest[0])
    ensures LeadingDigits(p + rest) == |p|
    decreases |p|
  {
    if |p| > 0 {
      assert (p + rest)[1..] == p[1..] + rest;
      LeadingDigitsOf(p[1..], rest);
    }
  }

  /** Lower-casing works character by character, so it splits over `+`. */
  lemma LowerAppend(a: string, b: string)
    ensures Lower(a + b) == Lower(a) + Lower(b)
  {
  }

  /** Putting text in front of an accepted file name keeps its suffix. */
  lemma PrefixKeepsAllowed(prefix: string, filename: string)
    ensures AllowedUpload(filename) ==> AllowedUpload(prefix + filename)
  {
    LowerAppend(prefix, filename);
    var low := Lower(filename);
    if EndsWith(filename, ".pdf") {
      EndsWithAppend(prefix, filename, ".pdf");
    } else if EndsWith(low, ".jpg") {
      EndsWithAppend(Lower(prefix), low, ".jpg");
    } else if EndsWith(low, ".jpeg") {
      EndsWithAppend(Lower(prefix), low, ".jpeg");
    } else if EndsWith(low, ".png") {
      EndsWithAppend(Lower(prefix), low, ".png");
    }
  }

  lemma EndsWithAppend(a: string, b: string, suffix: string)
    requires EndsWith(b, suffix)
    ensures EndsWith(a + b, suffix)
  {
    assert (a + b)[|a + b| - |suffix|..] == b[|b| - |suffix|..];
  }

  // ---------------------------------------------------------------------
  // The POST branch

  /** The upload fields: the uploaded file's name (`None` when no file was
      sent), the name typed for the document, its optional expiration date. */
  datatype UploadForm = UploadForm(file: Option<string>, name: Option<string>, expiration: Option<Date>)

  /** The posted form: which buttons' names it carries, the upload fields and
      `document_id` (`None` when the field is absent). */
  datatype DocPost = DocPost(addDocument: bool, deleteDocument: bool, upload: UploadForm, documentId: Option<nat>)

  datatype Outcome =
    | AccessDenied            // not an administrator: sent to the home page
    | NotFound                // `get_or_404` found no row
    | BadRequest              // `request.form['document_id']` is missing
    | Refused(message: string)
    | UploadFailed            // the file could not be saved
    | Uploaded
    | Deleted
    | NoAction                // neither branch applied

  /** A `FileStorage` is truthy when it carries a non-empty file name. */
  predicate FileGiven(file: Option<string>) {
    file.Some? && file.value != ""
  }

  /** Both the file and the sanitized name are truthy. */
  predicate UploadComplete(form: UploadForm) {
    FileGiven(form.file) && SanitizeInput(form.name).Some? && SanitizeInput(form.name).value != ""
  }

  /** `Document.query.get_or_404(document_id)`: looked up by id alone. */
  function FindDocument(docs: seq<Document>, id: nat): (r: Option<Document>)
    ensures r.Some? ==> r.value in docs && r.value.id == id
    ensures r.None? ==> forall i :: 0 <= i < |docs| ==> docs[i].id != id
  {
    Find(docs, (d: Document) => d.id == id)
  }

  /** Every document except those with id `id`. */
  function WithoutId(docs: seq<Document>, id: nat): (r: seq<Document>)
    ensures forall d :: d in r <==> d in docs && d.id != id
  {
    var r := Filter(docs, (d: Document) => d.id != id);
    forall d ensures d in r <==> d in docs && d.id != id {
      FilterMembers(docs, (d: Document) => d.id != id, d);
    }
    r
  }

  /** The `add_document` branch, once the user and the resident are known. */
  function Upload(store: DocStore, resident: Resident, user: DailyLogs.User, form: UploadForm,
                  now: Moment, newId: nat, saved: bool): (r: (DocStore, Outcome))
    requires ValidMoment(now)
    ensures r.1 in {Uploaded, UploadFailed, Refused("File and name are required"),
                    Refused("Invalid file type. Only PDFs and images allowed.")}
    ensures r.1 == Refused("File and name are required") <==> !UploadComplete(form)
    ensures r.1 == Refused("Invalid file type. Only PDFs and images allowed.")
            <==> UploadComplete(form) && !AllowedUpload(form.file.value)
    ensures r.1 == UploadFailed <==> UploadComplete(form) && AllowedUpload(form.file.value) && !saved
    ensures !r.1.Uploaded? ==> r.0 == store
    ensures r.1.Uploaded? <==> UploadComplete(form) && AllowedUpload(form.file.value) && saved
    ensures r.1.Uploaded? ==>
              && |r.0.docs| == |store.docs| + 1 && r.0.docs[..|store.docs|] == store.docs
              && |r.0.audit| == |store.audit| + 1 && r.0.audit[..|store.audit|] == store.audit
  {
    var name := SanitizeInput(form.name);
    if !UploadComplete(form) then (store, Refused("File and name are required"))
    else if !AllowedUpload(form.file.value) then (store, Refused("Invalid file type. Only PDFs and images allowed."))
    else if !saved then (store, UploadFailed)
    else
      var doc := Document(newId, resident.id, StoredName(resident.id, now, form.file.value),
                          name.value, now.date, form.expiration);
      var entry := AuditLog(user.id, "Uploaded document " + name.value + " for " + resident.name);
      (DocStore(store.docs + [doc], store.audit + [entry]), Uploaded)
  }

  /** The `delete_document` branch.  The document is looked up by id only:
      one belonging to another resident is deleted as well, and the audit
      entry names the resident whose page was used. */
  function Delete(store: DocStore, resident: Resident, user: DailyLogs.User, documentId: Option<nat>)
    : (r: (DocStore, Outcome))
    ensures r.1 in {Deleted, BadRequest, NotFound}
    ensures !r.1.Deleted? ==> r.0 == store
    ensures r.1 == BadRequest <==> documentId.None?
    ensures r.1.Deleted? <==> documentId.Some? && exists d :: d in store.docs && d.id == documentId.value
    ensures r.1.Deleted? ==>
              && (forall d :: d in r.0.docs <==> d in store.docs && d.id != documentId.value)
              && |r.0.audit| == |store.audit| + 1 && r.0.audit[..|store.audit|] == store.audit
  {
    match documentId
    case None => (store, BadRequest)
    case Some(id) =>
      match FindDocument(store.docs, id)
      case None => (store, NotFound)
      case Some(doc) =>
        var entry := AuditLog(user.id, "Deleted document " + doc.name + " for " + resident.name);
        (DocStore(WithoutId(store.docs, id), store.audit + [entry]), Deleted)
  }

  /** A POST to the documents page of resident `residentId`.  `formValid` is
      `form.validate_on_submit()`; when it fails, or the add button is
      absent, the delete branch is tried instead. */
  function PostDocuments(store: DocStore, residents: seq<Resident>, residentId: nat, user: DailyLogs.User,
                         formValid: bool, post: DocPost, now: Moment, newId: nat, saved: bool)
    : (r: (DocStore, Outcome))
    requires ValidMoment(now)
    ensures user.role != "admin" ==> r == (store, AccessDenied)
    ensures user.role == "admin" && FindResident(residents, residentId).None? ==> r == (store, NotFound)
    ensures r.1.Uploaded? ==> formValid && post.addDocument
    ensures r.1.Deleted? ==> !(formValid && post.addDocument) && post.deleteDocument
    ensures !r.1.Uploaded? && !r.1.Deleted? ==> r.0 == store
  {
    if user.role != "admin" then (store, AccessDenied)
    else
      match FindResident(residents, residentId)
      case None => (store, NotFound)
      case Some(resident) =>
        if formValid && post.addDocument then Upload(store, resident, user, post.upload, now, newId, saved)
        else if post.deleteDocument then Delete(store, resident, user, post.documentId)
        else (store, NoAction)
  }

  // ---------------------------------------------------------------------
  // Properties of the page

  /** A document is added exactly when an administrator posts a valid add
      form for an existing resident with a file, a non-blank name and an
      accepted file type, and the file is saved.  The new row belongs to the
      page's resident, carries the sanitized name and today's date, and is
      stored under a name that still has an accepted suffix and reads back
      to the resident. */
  lemma UploadIff(store: DocStore, residents: seq<Resident>, residentId: nat, user: DailyLogs.User,
                  formValid: bool, post: DocPost, now: Moment, newId: nat, saved: bool)
    requires ValidMoment(now)
    ensures var r := PostDocuments(store, residents, residentId, user, formValid, post, now, newId, saved);
            && (r.1.Uploaded?
                <==> user.role == "admin" && FindResident(residents, residentId).Some?
                     && formValid && post.addDocument
                     && UploadComplete(post.upload) && AllowedUpload(post.upload.file.value) && saved)
            && (r.1.Uploaded? ==>
                  var d := r.0.docs[|store.docs|];
                  && d.id == newId && d.residentId == residentId
                  && Some(d.name) == SanitizeInput(post.upload.name)
                  && d.uploadDate == now.date && d.expiration == post.upload.expiration
                  && AllowedUpload(d.filename)
                  && SplitStoredName(d.filename) == Some((residentId, Stamp(now), post.upload.file.value)))
  {
    var r := PostDocuments(store, residents, residentId, user, formValid, post, now, newId, saved);
    if r.1.Uploaded? {
      SplitStoredNameRoundTrip(residentId, now, post.upload.file.value);
    }
  }

  /** A document is deleted exactly when an administrator's post for an
      existing resident does not take the upload branch, asks for a delete
      and names the id of some document, whichever resident it belongs to. */
  lemma DeleteIff(store: DocStore, residents: seq<Resident>, residentId: nat, user: DailyLogs.User,
                  formValid: bool, post: DocPost, now: Moment, newId: nat, saved: bool)
    requires ValidMoment(now)
    ensures var r := PostDocuments(store, residents, residentId, user, formValid, post, now, newId, saved);
            r.1.Deleted?
            <==> user.role == "admin" && FindResident(residents, residentId).Some?
                 && !(formValid && post.addDocument) && post.deleteDocument
                 && post.documentId.Some? && exists d :: d in store.docs && d.id == post.documentId.value
  {
  }

  /** With unique ids a delete removes exactly one document and keeps the
      rest in order. */
  lemma DeleteRemovesOne(store: DocStore, residents: seq<Resident>, residentId: nat, user: DailyLogs.User,
                         formValid: bool, post: DocPost, now: Moment, newId: nat, saved: bool)
    requires ValidMoment(now)
    requires UniqueIds(store.docs)
    ensures var r := PostDocuments(store, residents, residentId, user, formValid, post, now, newId, saved);
            r.1.Deleted? ==> |r.0.docs| == |store.docs| - 1
  {
    var r := PostDocuments(store, residents, residentId, user, formValid, post, now, newId, saved);
    if r.1.Deleted? {
      var id := post.documentId.value;
      var k :| 0 <= k < |store.docs| && store.docs[k].id == id;
      FilterDropsOne(store.docs, id, k);
    }
  }

  /** Adding a row under a fresh id, or deleting one, keeps ids unique. */
  lemma PostKeepsUniqueIds(store: DocStore, residents: seq<Resident>, residentId: nat, user: DailyLogs.User,
                           formValid: bool, post: DocPost, now: Moment, newId: nat, saved: bool)
    requires ValidMoment(now)
    requires UniqueIds(store.docs)
    requires forall d :: d in store.docs ==> d.id != newId
    ensures UniqueIds(PostDocuments(store, residents, residentId, user, formValid, post, now, newId, saved).0.docs)
  {
    var r := PostDocuments(store, residents, residentId, user, formValid, post, now, newId, saved);
    if r.1.Deleted? {
      FilterKeepsUnique(store.docs, (d: Document) => d.id != post.documentId.value);
    } else if r.1.Uploaded? {
      var n := |store.docs|;
      forall i, j | 0 <= i < j < |r.0.docs| ensures r.0.docs[i].id != r.0.docs[j].id {
        if j == n {
          assert r.0.docs[i] == store.docs[i];
        } else {
          assert r.0.docs[i] == store.docs[i] && r.0.docs[j] == store.docs[j];
        }
      }
    }
  }

  lemma {:induction false} FilterKeepsUnique(docs: seq<Document>, p: Document -> bool)
    requires UniqueIds(docs)
    ensures UniqueIds(Filter(docs, p))
    decreases |docs|
  {
    if |docs| > 0 {
      var rest := Filter(docs[1..], p);
      FilterKeepsUnique(docs[1..], p);
      if p(docs[0]) {
        var r := [docs[0]] + rest;
        forall i, j | 0 <= i < j < |r| ensures r[i].id != r[j].id {
          if i == 0 {
            FilterMembers(docs[1..], p, r[j]);
            var k :| 0 <= k < |docs[1..]| && docs[1..][k] == r[j];
            assert docs[k + 1] == r[j];
          } else {
            assert r[i] == rest[i - 1] && r[j] == rest[j - 1];
          }
        }
      }
    }
  }

  /** Filtering out an id held at exactly one index drops one element. */
  lemma {:induction false} FilterDropsOne(docs: seq<Document>, id: nat, k: nat)
    requires UniqueIds(docs)
    requires k < |docs| && docs[k].id == id
    ensures |Filter(docs, (d: Document) => d.id != id)| == |docs| - 1
    decreases |docs|
  {
    var p := (d: Document) => d.id != id;
    if k == 0 {
      FilterKeepsAll(docs[1..], p);
    } else {
      FilterDropsOne(docs[1..], id, k - 1);
    }
  }

  lemma {:induction false} FilterKeepsAll<T>(s: seq<T>, p: T -> bool)
    requires forall i :: 0 <= i < |s| ==> p(s[i])
    ensures Filter(s, p) == s
    decreases |s|
  {
    if |s| > 0 {
      FilterKeepsAll(s[1..], p);
    }
  }

  /** Deleting uses only the id: a document of another resident is removed
      from this resident's page, and the audit entry names this resident. */
  lemma DeleteIgnoresOwner()
    ensures var mary := Resident(1, "Mary");
            var doc := Document(7, 2, "2_x.pdf", "Care plan", Ymd(2024, 1, 1), None);
            var store := DocStore([doc], []);
            var admin := DailyLogs.User(5, "admin");
            var post := DocPost(false, true, UploadForm(None, None, None), Some(7));
            PostDocuments(store, [mary], 1, admin, true, post, Moment(Ymd(2024, 1, 2), 9, 0, 0), 8, true)
              == (DocStore([], [AuditLog(5, "Deleted document Care plan for Mary")]), Deleted)
  {
    var mary := Resident(1, "Mary");
    var doc := Document(7, 2, "2_x.pdf", "Care plan", Ymd(2024, 1, 1), None);
    assert FindResident([mary], 1) == Some(mary);
    assert FindDocument([doc], 7) == Some(doc);
    assert "Deleted document " + "Care plan" + " for " + "Mary" == "Deleted document Care plan for Mary";
  }
}

=== FILE: expiry_alerts.dfy ===
/**
  `check_and_send_medication_alerts` (medication_notifications.py:7-111):
  every medication and document with an expiration date and an existing
  resident is placed in one of five bands relative to today.  Three bands
  warrant one e-mail each, sent only if the pair (alert key, alert type) is
  not yet recorded in the notification log and recorded right after; the
  fourth only lists the item; the fifth does nothing.

  The notification log is a set of pairs.  When its table cannot be read or
  written the lookups answer "not sent" and the records are lost, so the
  de-duplication fails open.
*/
module ExpiryAlerts {
  import opened Maybe
  import opened Text
  import opened Dates
  import opened Records

  datatype ItemKind = MedicationItem | DocumentItem

  /** A medication or document row as the check reads it. */
  datatype Item = Item(id: nat, residentId: nat, name: string, expiration: Option<Date>)

  // ---------------------------------------------------------------------
  // Bands

  datatype Band = ExpiresToday | ExpiresInSevenDays | Overdue | ExpiringSoon | NotYet

  /** The `if/elif` chain, tried in the code's order against `today` and
      `seven_days_out`. */
  function Classify(expiration: Date, today: Date, sevenOut: Date): (b: Band)
    ensures b == ExpiresToday <==> expiration == today
    ensures b == ExpiresInSevenDays <==> expiration != today && expiration == sevenOut
    ensures b == Overdue <==> expiration != today && expiration != sevenOut && Before(expiration, today)
    ensures b == NotYet <==> expiration != today && expiration != sevenOut && !Before(expiration, today)
                             && Before(sevenOut, expiration)
  {
    if expiration == today then ExpiresToday
    else if expiration == sevenOut then ExpiresInSevenDays
    else if Before(expiration, today) then Overdue
    else if !Before(sevenOut, expiration) then ExpiringSoon
    else NotYet
  }

  /** With `sevenOut` a week after `today`, the band depends only on how many
      days away the expiration is: 0, 7, negative, 1 to 6, or more than 7. */
  lemma ClassifyByDistance(expiration: Date, today: Date, sevenOut: Date)
    requires Ordinal(sevenOut) == Ordinal(today) + 7
    ensures var n := Ordinal(expiration) - Ordinal(today);
            && (Classify(expiration, today, sevenOut) == ExpiresToday <==> n == 0)
            && (Classify(expiration, today, sevenOut) == ExpiresInSevenDays <==> n == 7)
            && (Classify(expiration, today, sevenOut) == Overdue <==> n < 0)
            && (Classify(expiration, today, sevenOut) == ExpiringSoon <==> 0 < n < 7)
            && (Classify(expiration, today, sevenOut) == NotYet <==> n > 7)
  {
    OrdinalOrder(expiration, today);
    OrdinalOrder(expiration, sevenOut);
    OrdinalOrder(sevenOut, expiration);
  }

  /** The `alert_type` recorded for a band that e-mails. */
  datatype AlertType = Expiry | SevenDay | ExpiredNotification

  function AlertTypeName(t: AlertType): string {
    match t
    case Expiry => "expiry"
    case SevenDay => "7day"
    case ExpiredNotification => "expired_notification"
  }

  function BandAlert(b: Band): (t: Option<AlertType>)
    ensures t.None? <==> b == ExpiringSoon || b == NotYet
  {
    match b
    case ExpiresToday => Some(Expiry)
    case ExpiresInSevenDays => Some(SevenDay)
    case Overdue => Some(ExpiredNotification)
    case _ => None
  }

  // ---------------------------------------------------------------------
  // Alert keys

  function KeyPrefix(kind: ItemKind): string {
    match kind
    case MedicationItem => "med_"
    case DocumentItem => "doc_"
  }

  /** `f"med_{id}_{expiration_date}"` or `f"doc_{id}_{expiration_date}"`. */
  function AlertKey(kind: ItemKind, id: nat, expiration: Date): (k: string)
    ensures |k| == 4 + |NatToString(id)| + 11
  {
    KeyPrefix(kind) + NatToString(id) + "_" + IsoFormat(expiration)
  }

  /** Keys determine their item kind, id and expiration date: a medication
      key never equals a document key, and moving an expiration date gives a
      fresh key. */
  lemma AlertKeyInjective(k1: ItemKind, id1: nat, d1: Date, k2: ItemKind, id2: nat, d2: Date)
    requires AlertKey(k1, id1, d1) == AlertKey(k2, id2, d2)
    ensures k1 == k2 && id1 == id2 && d1 == d2
  {
    var a, b := AlertKey(k1, id1, d1), AlertKey(k2, id2, d2);
    assert a[0] == KeyPrefix(k1)[0] && b[0] == KeyPrefix(k2)[0];
    var n := |NatToString(id1)|;
    assert |NatToString(id2)| == n;
    assert a[4..4 + n] == NatToString(id1);
    assert b[4..4 + n] == NatToString(id2);
    NatToStringInjective(id1, id2);
    assert a[5 + n..] == IsoFormat(d1);
    assert b[5 + n..] == IsoFormat(d2);
    IsoFormatInjective(d1, d2);
  }

  // ---------------------------------------------------------------------
  // The notification log

  datatype SentStore = Available(sent: set<(string, AlertType)>) | Unavailable

  /** `has_alert_been_sent`: a failing lookup answers `False`. */
  predicate HasBeenSent(store: SentStore, key: string, t: AlertType)
    ensures store.Unavailable? ==> !HasBeenSent(store, key, t)
    ensures HasBeenSent(store, key, t) ==> (key, t) in store.sent
  {
    store.Available? && (key, t) in store.sent
  }

  /** `mark_alert_as_sent`: a failing insert is rolled back and forgotten. */
  function MarkSent(store: SentStore, key: string, t: AlertType): (r: SentStore)
    ensures r.Available? <==> store.Available?
    ensures store.Available? ==> r.sent == store.sent + {(key, t)}
  {
    match store
    case Available(sent) => Available(sent + {(key, t)})
    case Unavailable => Unavailable
  }

  /** A recorded pair is reported as sent, and recording touches no other pair. */
  lemma MarkThenHas(store: SentStore, key: string, t: AlertType, key2: string, t2: AlertType)
    ensures HasBeenSent(MarkSent(store, key, t), key2, t2)
            <==> store.Available? && ((key2, t2) == (key, t) || HasBeenSent(store, key2, t2))
  {
  }

  // ---------------------------------------------------------------------
  // One run

  /** The `alert_type` handed to `send_medication_alert` / `send_document_alert`. */
  datatype Notice = ExpiredTodayNotice | SevenDayWarning | OverdueNotice

  function NoticeName(n: Notice): string {
    match n
    case ExpiredTodayNotice => "expired"
    case SevenDayWarning => "7-day warning"
    case OverdueNotice => "overdue"
  }

  function NoticeOf(t: AlertType): Notice {
    match t
    case Expiry => ExpiredTodayNotice
    case SevenDay => SevenDayWarning
    case ExpiredNotification => OverdueNotice
  }

  /** One e-mail handed to the mailer; delivery and its failures are not
      modelled. */
  datatype SendEvent = SendEvent(
    kind: ItemKind, residentName: string, itemName: string, expiration: Date,
    notice: Notice, key: string, alertType: AlertType)

  function PairOf(e: SendEvent): (string, AlertType) {
    (e.key, e.alertType)
  }

  /** One entry of the returned `alerts` list; `mailed` says whether an e-mail
      went out with it. */
  datatype Listing = Listing(
    kind: ItemKind, band: Band, mailed: bool, itemName: string, residentName: string, expiration: Date)

  function KindWord(kind: ItemKind, capital: bool): string {
    match kind
    case MedicationItem => if capital then "Medication" else "medication"
    case DocumentItem => if capital then "Document" else "document"
  }

  /** The text appended to `alerts`. */
  function ListingText(l: Listing): (r: string)
    ensures l.mailed && l.band == ExpiresToday ==> "EXPIRED: " <= r
    ensures l.mailed && l.band == ExpiresInSevenDays ==> "7-DAY WARNING: " <= r
    ensures l.mailed && l.band == Overdue ==> "OVERDUE: " <= r
    ensures !l.mailed && (l.band == ExpiresToday || l.band == Overdue) ==> "Expired " <= r
  {
    var what := KindWord(l.kind, true) + " " + l.itemName + " for " + l.residentName;
    var soon := KindWord(l.kind, true) + " expiring soon: " + l.itemName + " for " + l.residentName
                + " (expires " + IsoFormat(l.expiration) + ")";
    var expired := "Expired " + KindWord(l.kind, false) + ": " + l.itemName + " for " + l.residentName;
    match l.band
    case ExpiresToday => if l.mailed then "EXPIRED: " + what + " expired today" else expired
    case ExpiresInSevenDays =>
      if l.mailed then "7-DAY WARNING: " + what + " expires on " + IsoFormat(l.expiration) else soon
    case Overdue => if l.mailed then "OVERDUE: " + what + " expired on " + IsoFormat(l.expiration) else expired
    case _ => soon
  }

  datatype RunState = RunState(store: SentStore, alerts: seq<Listing>, outbox: seq<SendEvent>)

  /** An item the loop does not `continue` past: it has an expiration date and
      its resident exists. */
  predicate Considered(item: Item, residents: seq<Resident>) {
    item.expiration.Some? && FindResident(residents, item.residentId).Some?
  }

  /** The pair an item's e-mail is recorded under, if its band e-mails. */
  function Pending(kind: ItemKind, item: Item, residents: seq<Resident>, today: Date, sevenOut: Date)
    : Option<(string, AlertType)>
  {
    if !Considered(item, residents) then None
    else
      match BandAlert(Classify(item.expiration.value, today, sevenOut))
      case None => None
      case Some(t) => Some((AlertKey(kind, item.id, item.expiration.value), t))
  }

  /** Whether the item adds an entry to `alerts`. */
  predicate Listed(item: Item, residents: seq<Resident>, today: Date, sevenOut: Date) {
    Considered(item, residents) && Classify(item.expiration.value, today, sevenOut) != NotYet
  }

  /** Whether this item's e-mail goes out now. */
  predicate SendsNow(kind: ItemKind, item: Item, residents: seq<Resident>, today: Date, sevenOut: Date,
                     store: SentStore) {
    var p := Pending(kind, item, residents, today, sevenOut);
    p.Some? && !HasBeenSent(store, p.value.0, p.value.1)
  }

  /** One pass of the loop body for `item`. */
  function Step(st: RunState, kind: ItemKind, item: Item, residents: seq<Resident>, today: Date, sevenOut: Date)
    : (r: RunState)
    ensures var p := Pending(kind, item, residents, today, sevenOut);
            if SendsNow(kind, item, residents, today, sevenOut, st.store) then
              && r.store == MarkSent(st.store, p.value.0, p.value.1)
              && |r.outbox| == |st.outbox| + 1 && r.outbox[..|st.outbox|] == st.outbox
              && PairOf(r.outbox[|st.outbox|]) == p.value
            else r.store == st.store && r.outbox == st.outbox
    ensures |r.alerts| == |st.alerts| + (if Listed(item, residents, today, sevenOut) then 1 else 0)
    ensures r.alerts[..|st.alerts|] == st.alerts
    ensures |r.alerts| > |st.alerts| ==>
              (r.alerts[|st.alerts|].mailed <==> SendsNow(kind, item, residents, today, sevenOut, st.store))
  {
    if item.expiration.None? then st
    else
      match FindResident(residents, item.residentId)
      case None => st
      case Some(resident) =>
        var expiration := item.expiration.value;
        var band := Classify(expiration, today, sevenOut);
        match BandAlert(band)
        case None =>
          if band == ExpiringSoon then
            st.(alerts := st.alerts + [Listing(kind, band, false, item.name, resident.name, expiration)])
          else st
        case Some(t) =>
          var key := AlertKey(kind, item.id, expiration);
          if !HasBeenSent(st.store, key, t) then
            RunState(
              MarkSent(st.store, key, t),
              st.alerts + [Listing(kind, band, true, item.name, resident.name, expiration)],
              st.outbox + [SendEvent(kind, resident.name, item.name, expiration, NoticeOf(t), key, t)])
          else
            st.(alerts := st.alerts + [Listing(kind, band, false, item.name, resident.name, expiration)])
  }

  /** The `for` loop over one table. */
  function ProcessAll(st: RunState, kind: ItemKind, items: seq<Item>, residents: seq<Resident>,
                      today: Date, sevenOut: Date): (r: RunState)
    ensures |r.alerts| == |st.alerts| + ListedCount(items, residents, today, sevenOut)
    ensures |st.alerts| <= |r.alerts| <= |st.alerts| + |items| && r.alerts[..|st.alerts|] == st.alerts
    ensures |st.outbox| <= |r.outbox| <= |st.outbox| + |items| && r.outbox[..|st.outbox|] == st.outbox
    decreases |items|
  {
    if |items| == 0 then st
    else
      var next := Step(st, kind, items[0], residents, today, sevenOut);
      var r := ProcessAll(next, kind, items[1..], residents, today, sevenOut);
      assert r.alerts[..|st.alerts|] == r.alerts[..|next.alerts|][..|st.alerts|];
      assert r.outbox[..|st.outbox|] == r.outbox[..|next.outbox|][..|st.outbox|];
      r
  }

  /** The number of items that add an entry to `alerts`. */
  function ListedCount(items: seq<Item>, residents: seq<Resident>, today: Date, sevenOut: Date): (n: nat)
    ensures n <= |items|
    decreases |items|
  {
    if |items| == 0 then 0
    else (if Listed(items[0], residents, today, sevenOut) then 1 else 0)
         + ListedCount(items[1..], residents, today, sevenOut)
  }

  /** The whole check: medications first, then documents.  `None` is the
      `OverflowError` of `today + timedelta(days=7)` in the last week of
      year 9999. */
  function CheckAlerts(store: SentStore, meds: seq<Item>, docs: seq<Item>, residents: seq<Resident>, today: Date)
    : (r: Option<RunState>)
    ensures r.None? <==> Ordinal(today) + 7 > MaxOrdinal
  {
    OrdinalRange(today);
    match AddDays(today, 7)
    case None => None
    case Some(sevenOut) =>
      var afterMeds := ProcessAll(RunState(store, [], []), MedicationItem, meds, residents, today, sevenOut);
      Some(ProcessAll(afterMeds, DocumentItem, docs, residents, today, sevenOut))
  }

  // ---------------------------------------------------------------------
  // Properties of a run

  /** Skipped items, and items more than a week away, leave everything as it
      was; an item expiring within the week (exclusive) is only listed. */
  lemma QuietBands(st: RunState, kind: ItemKind, item: Item, residents: seq<Resident>, today: Date, sevenOut: Date)
    ensures !Listed(item, residents, today, sevenOut) ==> Step(st, kind, item, residents, today, sevenOut) == st
    ensures Considered(item, residents) && Classify(item.expiration.value, today, sevenOut) == ExpiringSoon ==>
              var r := Step(st, kind, item, residents, today, sevenOut);
              r.store == st.store && r.outbox == st.outbox && |r.alerts| == |st.alerts| + 1
              && !r.alerts[|st.alerts|].mailed
  {
  }

  /** The store records everything it recorded before. */
  lemma {:induction false} ProcessAllGrows(st: RunState, kind: ItemKind, items: seq<Item>, residents: seq<Resident>,
                                           today: Date, sevenOut: Date)
    ensures var r := ProcessAll(st, kind, items, residents, today, sevenOut);
            && (r.store.Available? <==> st.store.Available?)
            && (st.store.Available? ==> st.store.sent <= r.store.sent)
            && |st.outbox| <= |r.outbox| && r.outbox[..|st.outbox|] == st.outbox
    decreases |items|
  {
    if |items| > 0 {
      var s1 := Step(st, kind, items[0], residents, today, sevenOut);
      ProcessAllGrows(s1, kind, items[1..], residents, today, sevenOut);
    }
  }

  /** Every item whose band e-mails has its pair recorded in `store`. */
  predicate Covered(store: SentStore, kind: ItemKind, items: seq<Item>, residents: seq<Resident>,
                    today: Date, sevenOut: Date) {
    forall i :: 0 <= i < |items| && Pending(kind, items[i], residents, today, sevenOut).Some? ==>
      HasBeenSent(store, Pending(kind, items[i], residents, today, sevenOut).value.0,
                  Pending(kind, items[i], residents, today, sevenOut).value.1)
  }

  /** After a run over `items` with a working log, all their pairs are recorded. */
  lemma {:induction false} ProcessAllCovers(st: RunState, kind: ItemKind, items: seq<Item>, residents: seq<Resident>,
                                            today: Date, sevenOut: Date)
    requires st.store.Available?
    ensures Covered(ProcessAll(st, kind, items, residents, today, sevenOut).store, kind, items, residents, today, sevenOut)
    decreases |items|
  {
    if |items| > 0 {
      var s1 := Step(st, kind, items[0], residents, today, sevenOut);
      var r := ProcessAll(s1, kind, items[1..], residents, today, sevenOut);
      ProcessAllCovers(s1, kind, items[1..], residents, today, sevenOut);
      ProcessAllGrows(s1, kind, items[1..], residents, today, sevenOut);
      forall i | 0 <= i < |items| && Pending(kind, items[i], residents, today, sevenOut).Some?
        ensures HasBeenSent(r.store, Pending(kind, items[i], residents, today, sevenOut).value.0,
                            Pending(kind, items[i], residents, today, sevenOut).value.1)
      {
        if i > 0 {
          assert items[i] == items[1..][i - 1];
        }
      }
    }
  }

  lemma CoveredGrows(s1: SentStore, s2: SentStore, kind: ItemKind, items: seq<Item>, residents: seq<Resident>,
                     today: Date, sevenOut: Date)
    requires s1.Available? && s2.Available? && s1.sent <= s2.sent
    requires Covered(s1, kind, items, residents, today, sevenOut)
    ensures Covered(s2, kind, items, residents, today, sevenOut)
  {
  }

  /** A run over items whose pairs are all recorded sends nothing and
      records nothing. */
  lemma {:induction false} CoveredIsQuiet(st: RunState, kind: ItemKind, items: seq<Item>, residents: seq<Resident>,
                                          today: Date, sevenOut: Date)
    requires Covered(st.store, kind, items, residents, today, sevenOut)
    ensures ProcessAll(st, kind, items, residents, today, sevenOut).store == st.store
    ensures ProcessAll(st, kind, items, residents, today, sevenOut).outbox == st.outbox
    decreases |items|
  {
    if |items| > 0 {
      var s1 := Step(st, kind, items[0], residents, today, sevenOut);
      assert forall i :: 0 <= i < |items| - 1 ==> items[1..][i] == items[i + 1];
      CoveredIsQuiet(s1, kind, items[1..], residents, today, sevenOut);
    }
  }

  /** Running the check a second time on the same day with the same rows
      sends no e-mail and records nothing new. */
  lemma SecondRunQuiet(store: SentStore, meds: seq<Item>, docs: seq<Item>, residents: seq<Resident>, today: Date)
    requires store.Available? && Ordinal(today) + 7 <= MaxOrdinal
    ensures var first := CheckAlerts(store, meds, docs, residents, today).value;
            var second := CheckAlerts(first.store, meds, docs, residents, today).value;
            second.outbox == [] && second.store == first.store
  {
    OrdinalRange(today);
    var sevenOut := AddDays(today, 7).value;
    var m1 := ProcessAll(RunState(store, [], []), MedicationItem, meds, residents, today, sevenOut);
    var d1 := ProcessAll(m1, DocumentItem, docs, residents, today, sevenOut);
    ProcessAllCovers(RunState(store, [], []), MedicationItem, meds, residents, today, sevenOut);
    ProcessAllGrows(RunState(store, [], []), MedicationItem, meds, residents, today, sevenOut);
    ProcessAllCovers(m1, DocumentItem, docs, residents, today, sevenOut);
    ProcessAllGrows(m1, DocumentItem, docs, residents, today, sevenOut);
    CoveredGrows(m1.store, d1.store, MedicationItem, meds, residents, today, sevenOut);
    var start := RunState(d1.store, [], []);
    CoveredIsQuiet(start, MedicationItem, meds, residents, today, sevenOut);
    var m2 := ProcessAll(start, MedicationItem, meds, residents, today, sevenOut);
    CoveredIsQuiet(m2, DocumentItem, docs, residents, today, sevenOut);
  }

  /** With a working log, the pairs e-mailed during a run are pairwise
      distinct, none was recorded before the run, and all are recorded after
      it: an e-mail goes out at most once per pair. */
  predicate SentOnce(initial: set<(string, AlertType)>, st: RunState) {
    && st.store.Available?
    && initial <= st.store.sent
    && (forall i :: 0 <= i < |st.outbox| ==> PairOf(st.outbox[i]) in st.store.sent && PairOf(st.outbox[i]) !in initial)
    && (forall i, j :: 0 <= i < j < |st.outbox| ==> PairOf(st.outbox[i]) != PairOf(st.outbox[j]))
  }

  lemma {:induction false} ProcessAllSendsOnce(initial: set<(string, AlertType)>, st: RunState, kind: ItemKind,
                                               items: seq<Item>, residents: seq<Resident>, today: Date, sevenOut: Date)
    requires SentOnce(initial, st)
    ensures SentOnce(initial, ProcessAll(st, kind, items, residents, today, sevenOut))
    decreases |items|
  {
    if |items| > 0 {
      var s1 := Step(st, kind, items[0], residents, today, sevenOut);
      if |s1.outbox| > |st.outbox| {
        forall i | 0 <= i < |s1.outbox| ensures PairOf(s1.outbox[i]) in s1.store.sent {
          if i < |st.outbox| {
            assert s1.outbox[i] == st.outbox[i];
          }
        }
        forall i, j | 0 <= i < j < |s1.outbox| ensures PairOf(s1.outbox[i]) != PairOf(s1.outbox[j]) {
          assert s1.outbox[i] == st.outbox[i];
          if j < |st.outbox| {
            assert s1.outbox[j] == st.outbox[j];
          }
        }
      }
      ProcessAllSendsOnce(initial, s1, kind, items[1..], residents, today, sevenOut);
    }
  }

  lemma CheckAlertsSendsOnce(sent: set<(string, AlertType)>, meds: seq<Item>, docs: seq<Item>,
                             residents: seq<Resident>, today: Date)
    requires Ordinal(today) + 7 <= MaxOrdinal
    ensures SentOnce(sent, CheckAlerts(Available(sent), meds, docs, residents, today).value)
  {
    OrdinalRange(today);
    var sevenOut := AddDays(today, 7).value;
    var st := RunState(Available(sent), [], []);
    ProcessAllSendsOnce(sent, st, MedicationItem, meds, residents, today, sevenOut);
    var m1 := ProcessAll(st, MedicationItem, meds, residents, today, sevenOut);
    ProcessAllSendsOnce(sent, m1, DocumentItem, docs, residents, today, sevenOut);
  }

  /** The pairs of the e-mails in an outbox. */
  function OutboxPairs(outbox: seq<SendEvent>): set<(string, AlertType)> {
    set i | 0 <= i < |outbox| :: PairOf(outbox[i])
  }

  lemma OutboxPairsAppend(outbox: seq<SendEvent>, e: SendEvent)
    ensures OutboxPairs(outbox + [e]) == OutboxPairs(outbox) + {PairOf(e)}
  {
    var o := outbox + [e];
    assert o[|outbox|] == e;
    forall x | x in OutboxPairs(outbox) ensures x in OutboxPairs(o) {
      var i :| 0 <= i < |outbox| && PairOf(outbox[i]) == x;
      assert o[i] == outbox[i];
    }
  }

  /** With a working log, the log after a run holds exactly the pairs it
      held before plus the pairs of the e-mails sent: nothing is recorded
      without being mailed. */
  lemma {:induction false} ProcessAllAccounts(initial: set<(string, AlertType)>, st: RunState, kind: ItemKind,
                                              items: seq<Item>, residents: seq<Resident>, today: Date, sevenOut: Date)
    requires st.store.Available? && st.store.sent == initial + OutboxPairs(st.outbox)
    ensures var r := ProcessAll(st, kind, items, residents, today, sevenOut);
            r.store.Available? && r.store.sent == initial + OutboxPairs(r.outbox)
    decreases |items|
  {
    if |items| > 0 {
      var s1 := Step(st, kind, items[0], residents, today, sevenOut);
      if |s1.outbox| > |st.outbox| {
        assert s1.outbox == st.outbox + [s1.outbox[|st.outbox|]];
        OutboxPairsAppend(st.outbox, s1.outbox[|st.outbox|]);
      }
      ProcessAllAccounts(initial, s1, kind, items[1..], residents, today, sevenOut);
    }
  }

  /** With a working log, every medication or document whose band e-mails and
      whose pair was not yet recorded is mailed during the run. */
  lemma CheckAlertsSendsDue(sent: set<(string, AlertType)>, meds: seq<Item>, docs: seq<Item>,
                            residents: seq<Resident>, today: Date)
    requires Ordinal(today) + 7 <= MaxOrdinal
    ensures var sevenOut := AddDays(today, 7).value;
            var r := CheckAlerts(Available(sent), meds, docs, residents, today).value;
            && (forall i :: 0 <= i < |meds| && Pending(MedicationItem, meds[i], residents, today, sevenOut).Some?
                  && Pending(MedicationItem, meds[i], residents, today, sevenOut).value !in sent
                  ==> Pending(MedicationItem, meds[i], residents, today, sevenOut).value in OutboxPairs(r.outbox))
            && (forall i :: 0 <= i < |docs| && Pending(DocumentItem, docs[i], residents, today, sevenOut).Some?
                  && Pending(DocumentItem, docs[i], residents, today, sevenOut).value !in sent
                  ==> Pending(DocumentItem, docs[i], residents, today, sevenOut).value in OutboxPairs(r.outbox))
  {
    OrdinalRange(today);
    var sevenOut := AddDays(today, 7).value;
    var st := RunState(Available(sent), [], []);
    var m1 := ProcessAll(st, MedicationItem, meds, residents, today, sevenOut);
    var d1 := ProcessAll(m1, DocumentItem, docs, residents, today, sevenOut);
    ProcessAllAccounts(sent, st, MedicationItem, meds, residents, today, sevenOut);
    ProcessAllAccounts(sent, m1, DocumentItem, docs, residents, today, sevenOut);
    ProcessAllCovers(st, MedicationItem, meds, residents, today, sevenOut);
    ProcessAllCovers(m1, DocumentItem, docs, residents, today, sevenOut);
    ProcessAllGrows(m1, DocumentItem, docs, residents, today, sevenOut);
    CoveredGrows(m1.store, d1.store, MedicationItem, meds, residents, today, sevenOut);
  }

  /** Fail-open: with the log unavailable, every item whose band e-mails is
      mailed, on every run. */
  lemma {:induction false} UnavailableSendsAll(st: RunState, kind: ItemKind, items: seq<Item>, residents: seq<Resident>,
                                               today: Date, sevenOut: Date)
    requires st.store.Unavailable?
    ensures var r := ProcessAll(st, kind, items, residents, today, sevenOut);
            && r.store.Unavailable?
            && |r.outbox| == |st.outbox| + PendingCount(kind, items, residents, today, sevenOut)
    decreases |items|
  {
    if |items| > 0 {
      var s1 := Step(st, kind, items[0], residents, today, sevenOut);
      UnavailableSendsAll(s1, kind, items[1..], residents, today, sevenOut);
    }
  }

  /** The number of items whose band e-mails. */
  function PendingCount(kind: ItemKind, items: seq<Item>, residents: seq<Resident>, today: Date, sevenOut: Date): nat
    decreases |items|
  {
    if |items| == 0 then 0
    else (if Pending(kind, items[0], residents, today, sevenOut).Some? then 1 else 0)
         + PendingCount(kind, items[1..], residents, today, sevenOut)
  }

  /** The bands that matter for e-mail, checked on one item each: an item
      expiring today is mailed once, and an item three days out only listed. */
  lemma ExpiryExamples(today: Date, sevenOut: Date, resident: Resident)
    ensures Ordinal(sevenOut) == Ordinal(today) + 7 ==>
            var item := Item(1, resident.id, "Insulin", Some(today));
            var first := Step(RunState(Available({}), [], []), MedicationItem, item, [resident], today, sevenOut);
            var again := Step(first, MedicationItem, item, [resident], today, sevenOut);
            |first.outbox| == 1 && |again.outbox| == 1 && |again.alerts| == 2 && !again.alerts[1].mailed
  {
    if Ordinal(sevenOut) == Ordinal(today) + 7 {
      ClassifyByDistance(today, today, sevenOut);
    }
  }
}

=== FILE: home_alerts.dfy ===
/**
  The alert list of the home page (`home`, app.py:336-376).  For each
  resident, in order: one alert per meal with no food intake today, one
  alert and one e-mail per document whose expiration date has passed, and
  one alert and one e-mail per daily medication that is still running and
  has no administration logged today.  Nothing is remembered between page
  loads, so every visit raises and mails the same alerts again.
*/
module HomeAlerts {
  import opened Maybe
  import opened Dates
  import opened Records
  import opened Seqs
  import opened DailyLogs

  datatype Alert =
    | MissingMeal(resident: Resident, meal: Meal)
    | ExpiredDocument(resident: Resident, document: Document)
    | MissingDose(resident: Resident, medication: Medication)

  /** The text shown on the page. */
  function AlertText(a: Alert): string {
    match a
    case MissingMeal(r, m) => "Missing " + MealName(m) + " log for " + r.name
    case ExpiredDocument(r, d) => "Expired document: " + d.name + " for " + r.name
    case MissingDose(r, m) => "Missing dose for " + m.name + " for " + r.name
  }

  /** A message handed to `send_alert_email`; delivery is not modelled. */
  datatype Email = Email(subject: string, body: string)

  /** The e-mail that accompanies an alert: none for a missing meal. */
  function AlertEmail(a: Alert, today: Date): Option<Email> {
    match a
    case MissingMeal(_, _) => None
    case ExpiredDocument(r, d) =>
      var expiredOn := if d.expiration.Some? then IsoFormat(d.expiration.value) else "None";
      Some(Email("Expired Document Alert", "Document " + d.name + " for " + r.name + " expired on " + expiredOn))
    case MissingDose(r, m) =>
      Some(Email("Missing Medication Alert", "Missing dose for " + m.name + " for " + r.name + " on " + IsoFormat(today)))
  }

  /** `doc.expiration_date and doc.expiration_date < today`: a document is
      still valid on its expiration day. */
  predicate Expired(d: Document, today: Date) {
    d.expiration.Some? && Before(d.expiration.value, today)
  }

  /** `med.frequency == 'Daily' and (not med.end_date or med.end_date >= today)`:
      the end date itself is still a dosing day. */
  predicate DoseDue(m: Medication, today: Date) {
    m.frequency == Some("Daily") && (m.endDate.None? || !Before(m.endDate.value, today))
  }

  /** A log of medication `medId` on `today`. */
  function LoggedOn(medId: nat, today: Date): MedicationLog -> bool {
    (l: MedicationLog) => l.medicationId == medId && l.date == today
  }

  /** `MedicationLog.query.filter_by(medication_id=..., date=today).count() == 0`
      for a medication that is due. */
  predicate DoseMissing(m: Medication, logs: seq<MedicationLog>, today: Date) {
    DoseDue(m, today) && Count(logs, LoggedOn(m.id, today)) == 0
  }

  /** The documents of resident `r` whose expiration date has passed. */
  function ExpiredOf(r: Resident, today: Date): Document -> bool {
    (d: Document) => d.residentId == r.id && Expired(d, today)
  }

  /** The medications of resident `r` whose dose today is missing. */
  function DoseMissingOf(r: Resident, logs: seq<MedicationLog>, today: Date): Medication -> bool {
    (m: Medication) => m.residentId == r.id && DoseMissing(m, logs, today)
  }

  /** One alert per unlogged meal, in breakfast-lunch-dinner order. */
  function MealAlerts(r: Resident, foods: seq<FoodIntake>, today: Date): (a: seq<Alert>)
    ensures forall x :: x in a <==> x.MissingMeal? && x.resident == r && !MealLogged(foods, r.id, today, x.meal)
    ensures forall i :: 0 <= i < |a| ==> a[i].MissingMeal?
    ensures forall i, j :: 0 <= i < j < |a| ==> MealIndex(a[i].meal) < MealIndex(a[j].meal)
    ensures |a| <= 3
  {
    var missing := MissingMeals(foods, r.id, today);
    var a := seq(|missing|, i requires 0 <= i < |missing| => MissingMeal(r, missing[i]));
    assert forall x :: x in a <==> x.MissingMeal? && x.resident == r && x.meal in missing by {
      forall x: Alert | x.MissingMeal? && x.resident == r && x.meal in missing ensures x in a {
        var j :| 0 <= j < |missing| && missing[j] == x.meal;
        assert a[j] == x;
      }
    }
    a
  }

  /** One alert per expired document of the resident, in table order. */
  function DocumentAlerts(r: Resident, docs: seq<Document>, today: Date): (a: seq<Alert>)
    ensures forall x :: x in a ==> x.ExpiredDocument? && x.resident == r
    ensures forall d :: ExpiredDocument(r, d) in a <==> d in docs && d.residentId == r.id && Expired(d, today)
    ensures |a| == Count(docs, ExpiredOf(r, today))
  {
    if |docs| == 0 then []
    else
      var rest := DocumentAlerts(r, docs[1..], today);
      CountFront(docs, ExpiredOf(r, today));
      assert forall d :: d in docs <==> d == docs[0] || d in docs[1..];
      if docs[0].residentId == r.id && Expired(docs[0], today) then [ExpiredDocument(r, docs[0])] + rest else rest
  }

  /** One alert per medication of the resident missing today's dose, in table order. */
  function DoseAlerts(r: Resident, meds: seq<Medication>, logs: seq<MedicationLog>, today: Date): (a: seq<Alert>)
    ensures forall x :: x in a ==> x.MissingDose? && x.resident == r
    ensures forall m :: MissingDose(r, m) in a <==> m in meds && m.residentId == r.id && DoseMissing(m, logs, today)
    ensures |a| == Count(meds, DoseMissingOf(r, logs, today))
  {
    if |meds| == 0 then []
    else
      var rest := DoseAlerts(r, meds[1..], logs, today);
      CountFront(meds, DoseMissingOf(r, logs, today));
      assert forall m :: m in meds <==> m == meds[0] || m in meds[1..];
      if meds[0].residentId == r.id && DoseMissing(meds[0], logs, today) then [MissingDose(r, meds[0])] + rest else rest
  }

  /** The alerts of one resident: meals, then documents, then medications. */
  function ResidentAlerts(r: Resident, foods: seq<FoodIntake>, docs: seq<Document>, meds: seq<Medication>,
                          logs: seq<MedicationLog>, today: Date): seq<Alert> {
    MealAlerts(r, foods, today) + DocumentAlerts(r, docs, today) + DoseAlerts(r, meds, logs, today)
  }

  /** The `alerts` list the home page renders. */
  function Home(residents: seq<Resident>, foods: seq<FoodIntake>, docs: seq<Document>, meds: seq<Medication>,
                logs: seq<MedicationLog>, today: Date): (a: seq<Alert>)
    ensures forall x :: x in a ==> x.resident in residents
  {
    if |residents| == 0 then []
    else ResidentAlerts(residents[0], foods, docs, meds, logs, today) + Home(residents[1..], foods, docs, meds, logs, today)
  }

  /** The e-mails sent while the page is built, in the order of their alerts. */
  function Emails(alerts: seq<Alert>, today: Date): (e: seq<Email>)
    ensures |e| <= |alerts|
  {
    if |alerts| == 0 then []
    else
      match AlertEmail(alerts[0], today)
      case None => Emails(alerts[1..], today)
      case Some(m) => [m] + Emails(alerts[1..], today)
  }

  /** Which alerts the home page raises: every one of them is about a listed
      resident, and each kind appears exactly under its own condition. */
  lemma {:induction false} HomeAlertsIff(residents: seq<Resident>, foods: seq<FoodIntake>, docs: seq<Document>,
                                         meds: seq<Medication>, logs: seq<MedicationLog>, today: Date, r: Resident)
    ensures forall m: Meal :: MissingMeal(r, m) in Home(residents, foods, docs, meds, logs, today)
              <==> r in residents && !MealLogged(foods, r.id, today, m)
    ensures forall d :: ExpiredDocument(r, d) in Home(residents, foods, docs, meds, logs, today)
              <==> r in residents && d in docs && d.residentId == r.id && Expired(d, today)
    ensures forall m :: MissingDose(r, m) in Home(residents, foods, docs, meds, logs, today)
              <==> r in residents && m in meds && m.residentId == r.id && DoseMissing(m, logs, today)
  {
    if |residents| > 0 {
      HomeAlertsIff(residents[1..], foods, docs, meds, logs, today, r);
      assert forall x :: x in residents <==> x == residents[0] || x in residents[1..];
    }
  }

  /** A dose is missing exactly when the medication is due and no log for it is
      dated today. */
  lemma DoseMissingIff(m: Medication, logs: seq<MedicationLog>, today: Date)
    ensures DoseMissing(m, logs, today)
            <==> DoseDue(m, today) && forall i :: 0 <= i < |logs| ==> !(logs[i].medicationId == m.id && logs[i].date == today)
  {
  }

  /** The two date boundaries: a document expiring today raises nothing, and a
      daily medication ending today is still checked today. */
  lemma BoundaryDays(d: Document, m: Medication, today: Date)
    requires d.expiration == Some(today)
    requires m.frequency == Some("Daily") && m.endDate == Some(today)
    ensures !Expired(d, today) && DoseDue(m, today)
  {
  }

  /** Each expired document and each missing dose of a resident costs one
      e-mail; missing meals cost none. */
  lemma {:induction false} ResidentEmails(r: Resident, foods: seq<FoodIntake>, docs: seq<Document>,
                                          meds: seq<Medication>, logs: seq<MedicationLog>, today: Date)
    ensures |Emails(ResidentAlerts(r, foods, docs, meds, logs, today), today)|
            == |DocumentAlerts(r, docs, today)| + |DoseAlerts(r, meds, logs, today)|
    ensures |Emails(ResidentAlerts(r, foods, docs, meds, logs, today), today)|
            == Count(docs, ExpiredOf(r, today)) + Count(meds, DoseMissingOf(r, logs, today))
  {
    var ma, da, xa := MealAlerts(r, foods, today), DocumentAlerts(r, docs, today), DoseAlerts(r, meds, logs, today);
    EmailsOfParts(ma, da, xa, today);
  }

  lemma EmailsOfParts(ma: seq<Alert>, da: seq<Alert>, xa: seq<Alert>, today: Date)
    requires forall x :: x in ma ==> x.MissingMeal?
    requires forall x :: x in da ==> !x.MissingMeal?
    requires forall x :: x in xa ==> !x.MissingMeal?
    ensures |Emails(ma + da + xa, today)| == |da| + |xa|
  {
    EmailsAppend(ma, da + xa, today);
    EmailsAppend(da, xa, today);
    assert ma + da + xa == ma + (da + xa);
    EmailsNone(ma, today);
    EmailsAll(da, today);
    EmailsAll(xa, today);
  }

  lemma {:induction false} EmailsAppend(a: seq<Alert>, b: seq<Alert>, today: Date)
    ensures Emails(a + b, today) == Emails(a, today) + Emails(b, today)
  {
    if |a| > 0 {
      assert (a + b)[1..] == a[1..] + b;
      EmailsAppend(a[1..], b, today);
    } else {
      assert a + b == b;
    }
  }

  lemma {:induction false} EmailsNone(a: seq<Alert>, today: Date)
    requires forall x :: x in a ==> x.MissingMeal?
    ensures Emails(a, today) == []
  {
    if |a| > 0 {
      assert a[0] in a;
      EmailsNone(a[1..], today);
    }
  }

  lemma {:induction false} EmailsAll(a: seq<Alert>, today: Date)
    requires forall x :: x in a ==> !x.MissingMeal?
    ensures |Emails(a, today)| == |a|
  {
    if |a| > 0 {
      assert a[0] in a;
      EmailsAll(a[1..], today);
    }
  }
}

=== FILE: input_rules.dfy ===
/**
  Input rules of app.py that are pure functions of a string:
  `validate_password` (app.py:279-286) and the file-type test applied to an
  uploaded document's file name (app.py:889-891).
*/
module InputRules {
  import opened Maybe
  import opened Text

  // ---------------------------------------------------------------------
  // Password strength

  datatype PasswordRule = MinLength | HasUppercase | HasDigit

  /** The rules in the order `validate_password` checks them. */
  const PasswordRules: seq<PasswordRule> := [MinLength, HasUppercase, HasDigit]

  predicate Satisfies(password: string, rule: PasswordRule) {
    match rule
    case MinLength => |password| >= 8
    case HasUppercase => exists i :: 0 <= i < |password| && IsAsciiUpper(password[i])
    case HasDigit => exists i :: 0 <= i < |password| && IsAsciiDigit(password[i])
  }

  function RuleMessage(rule: PasswordRule): (m: string)
    ensures m != ""
  {
    match rule
    case MinLength => "Password must be at least 8 characters long"
    case HasUppercase => "Password must contain at least one uppercase letter"
    case HasDigit => "Password must contain at least one number"
  }

  /** The first rule of `rules` the password breaks. */
  function FirstBroken(password: string, rules: seq<PasswordRule>): (r: Option<PasswordRule>)
    ensures r.None? <==> forall i :: 0 <= i < |rules| ==> Satisfies(password, rules[i])
    ensures r.Some? ==> r.value in rules && !Satisfies(password, r.value)
  {
    if |rules| == 0 then None
    else if !Satisfies(password, rules[0]) then Some(rules[0])
    else FirstBroken(password, rules[1..])
  }

  /** `validate_password(password)`: `(True, "")` for a password of at least
      eight characters holding an ASCII capital and an ASCII digit; otherwise
      `False` with a non-empty message. */
  function ValidatePassword(password: string): (r: (bool, string))
    ensures r.0 <==> |password| >= 8
                     && (exists i :: 0 <= i < |password| && 'A' <= password[i] <= 'Z')
                     && (exists i :: 0 <= i < |password| && '0' <= password[i] <= '9')
    ensures r.0 <==> r.1 == ""
  {
    if |password| < 8 then
      (false, "Password must be at least 8 characters long")
    else if !(exists i :: 0 <= i < |password| && 'A' <= password[i] <= 'Z') then
      (false, "Password must contain at least one uppercase letter")
    else if !(exists i :: 0 <= i < |password| && '0' <= password[i] <= '9') then
      (false, "Password must contain at least one number")
    else
      (true, "")
  }

  /** The message reported is the one for the first broken rule in the order
      length, uppercase, digit, whatever else is broken too. */
  lemma PasswordReportsFirstBroken(password: string)
    ensures ValidatePassword(password)
            == match FirstBroken(password, PasswordRules)
               case None => (true, "")
               case Some(rule) => (false, RuleMessage(rule))
  {
    var rules := PasswordRules;
    assert rules[1..] == [HasUppercase, HasDigit];
    assert rules[1..][1..] == [HasDigit];
    assert rules[1..][1..][1..] == [];
    var tail := FirstBroken(password, [HasDigit]);
    assert tail == if Satisfies(password, HasDigit) then None else Some(HasDigit);
    var mid := FirstBroken(password, [HasUppercase, HasDigit]);
    assert mid == if Satisfies(password, HasUppercase) then tail else Some(HasUppercase);
    assert FirstBroken(password, rules) == if Satisfies(password, MinLength) then mid else Some(MinLength);
  }

  // ---------------------------------------------------------------------
  // Uploaded file names

  /** `file.filename.endswith('.pdf') or file.filename.lower().endswith(('.jpg', '.jpeg', '.png'))`.
      `str.lower()` is taken on ASCII letters only, which gives the same
      verdict here: no other character lower-cases to `.`, `j`, `p`, `g`,
      `e` or `n`. */
  predicate AllowedUpload(filename: string)
    ensures AllowedUpload(filename) ==>
              |filename| >= 4
              && (filename[|filename| - 4] == '.' || (|filename| >= 5 && filename[|filename| - 5] == '.'))
  {
    LowerKeepsDots(filename);
    || EndsWith(filename, ".pdf")
    || EndsWith(Lower(filename), ".jpg")
    || EndsWith(Lower(filename), ".jpeg")
    || EndsWith(Lower(filename), ".png")
  }

  /** Lower-casing moves no `.`. */
  lemma LowerKeepsDots(s: string)
    ensures |Lower(s)| == |s|
    ensures forall i :: 0 <= i < |s| ==> (Lower(s)[i] == '.' <==> s[i] == '.')
  {
  }

  /** Index of the last `.` in `s`, if there is one. */
  function LastDot(s: string): (r: Option<nat>)
    ensures r.Some? ==> r.value < |s| && s[r.value] == '.'
    ensures r.Some? ==> forall i :: r.value < i < |s| ==> s[i] != '.'
    ensures r.None? ==> forall i :: 0 <= i < |s| ==> s[i] != '.'
  {
    if |s| == 0 then None
    else if s[|s| - 1] == '.' then Some(|s| - 1)
    else LastDot(s[..|s| - 1])
  }

  /** The file's extension: the text after its last dot. */
  function Extension(filename: string): Option<string> {
    match LastDot(filename)
    case None => None
    case Some(k) => Some(filename[k + 1..])
  }

  /** A file is accepted exactly when its extension is `pdf` in lower case, or
      `jpg`, `jpeg` or `png` in any mixture of cases. */
  lemma AllowedUploadByExtension(filename: string)
    ensures AllowedUpload(filename)
            <==> match Extension(filename)
                 case None => false
                 case Some(e) => e == "pdf" || Lower(e) in ["jpg", "jpeg", "png"]
  {
    DotSuffix(filename, ".pdf");
    DotSuffix(filename, ".jpg");
    DotSuffix(filename, ".jpeg");
    DotSuffix(filename, ".png");
    assert ".pdf"[1..] == "pdf" && ".jpg"[1..] == "jpg" && ".jpeg"[1..] == "jpeg" && ".png"[1..] == "png";
  }

  /** A suffix that starts with its only dot is matched exactly when it is the
      dot and extension; lower-casing commutes with taking the extension. */
  lemma DotSuffix(filename: string, suffix: string)
    requires |suffix| > 0 && suffix[0] == '.'
    requires forall i :: 0 < i < |suffix| ==> suffix[i] != '.'
    ensures EndsWith(Lower(filename), suffix)
            <==> Extension(filename).Some? && Lower(Extension(filename).value) == suffix[1..]
    ensures EndsWith(filename, suffix)
            <==> Extension(filename).Some? && Extension(filename).value == suffix[1..]
  {
    var n := |filename|;
    var low := Lower(filename);
    if EndsWith(low, suffix) {
      var k := n - |suffix|;
      assert low[k] == '.';
      assert filename[k] == '.';
      forall i | k < i < n ensures filename[i] != '.' {
        assert low[i] == suffix[i - k];
      }
      assert LastDot(filename) == Some(k) by { LastDotIs(filename, k); }
      assert Lower(filename[k + 1..]) == low[k + 1..];
    }
    if Extension(filename).Some? && Lower(Extension(filename).value) == suffix[1..] {
      var k := LastDot(filename).value;
      assert Lower(filename[k + 1..]) == low[k + 1..];
      assert low[k..] == suffix;
    }
    if EndsWith(filename, suffix) {
      var k := n - |suffix|;
      assert LastDot(filename) == Some(k) by { LastDotIs(filename, k); }
    }
    if Extension(filename).Some? && Extension(filename).value == suffix[1..] {
      var k := LastDot(filename).value;
      assert filename[k..] == suffix;
    }
  }

  lemma {:induction false} LastDotIs(s: string, k: nat)
    requires k < |s| && s[k] == '.'
    requires forall i :: k < i < |s| ==> s[i] != '.'
    ensures LastDot(s) == Some(k)
  {
    if k < |s| - 1 {
      LastDotIs(s[..|s| - 1], k);
    }
  }

  /** The `.pdf` test alone is case-sensitive. */
  lemma PdfCaseSensitive()
    ensures AllowedUpload("scan.pdf") && !AllowedUpload("scan.PDF")
  {
    assert Lower("scan.PDF") == "scan.pdf";
  }

  /** Image suffixes are accepted in any case. */
  lemma ImageCaseFree()
    ensures AllowedUpload("photo.JPG") && AllowedUpload("photo.Jpeg") && AllowedUpload("chart.PNG")
  {
    assert Lower("photo.JPG")[5..] == ".jpg";
    assert Lower("photo.Jpeg")[5..] == ".jpeg";
    assert Lower("chart.PNG")[5..] == ".png";
  }

  /** Other suffixes, and a bare extension without its dot, are refused. */
  lemma OtherTypesRefused()
    ensures !AllowedUpload("notes.txt") && !AllowedUpload("pdf")
  {
    assert Lower("notes.txt") == "notes.txt";
    assert Lower("pdf") == "pdf";
  }
}

=== FILE: maybe.dfy ===
/** The optional value used wherever the source passes `None` around. */
module Maybe {

  datatype Option<+T> = None | Some(value: T) {

    /** The wrapped value, or `default` when there is none. */
    function GetOr(default: T): T {
      match this
      case Some(v) => v
      case None => default
    }
  }
}

=== FILE: records.dfy ===
/**
  The rows of app.py's tables that the modelled logic reads or writes
  (app.py:48-155), with the database replaced by sequences of rows.  Only
  the columns the logic looks at are kept; `id` columns are natural numbers.
*/
module Records {
  import opened Maybe
  import opened Dates
  import opened Seqs

  /** The three values of `meal_types = ['breakfast', 'lunch', 'dinner']`. */
  datatype Meal = Breakfast | Lunch | Dinner

  /** The meals in the order the application walks them. */
  const Meals: seq<Meal> := [Breakfast, Lunch, Dinner]

  function MealIndex(m: Meal): nat {
    match m
    case Breakfast => 0
    case Lunch => 1
    case Dinner => 2
  }

  /** The `meal_type` string stored for a meal. */
  function MealName(m: Meal): string {
    match m
    case Breakfast => "breakfast"
    case Lunch => "lunch"
    case Dinner => "dinner"
  }

  /** Reads a submitted `meal_type`: only the three lower-case names are meals. */
  function MealFromName(s: string): (r: Option<Meal>)
    ensures forall m: Meal :: r == Some(m) <==> s == MealName(m)
  {
    if s == "breakfast" then Some(Breakfast)
    else if s == "lunch" then Some(Lunch)
    else if s == "dinner" then Some(Dinner)
    else None
  }

  datatype Resident = Resident(id: nat, name: string)

  datatype FoodIntake = FoodIntake(residentId: nat, date: Date, meal: Meal, description: Option<string>)

  datatype LiquidIntake = LiquidIntake(
    residentId: nat, date: Date, time: Clock, liquidType: Option<string>, amount: Option<string>)

  datatype BowelMovement = BowelMovement(
    residentId: nat, date: Date, time: Clock, size: string, consistency: string)

  datatype UrineOutput = UrineOutput(residentId: nat, date: Date, time: Clock, output: string)

  datatype Medication = Medication(
    id: nat, residentId: nat, name: string, frequency: Option<string>, endDate: Option<Date>)

  datatype MedicationLog = MedicationLog(medicationId: nat, residentId: nat, date: Date)

  datatype Document = Document(
    id: nat, residentId: nat, filename: string, name: string, uploadDate: Date, expiration: Option<Date>)

  datatype AuditLog = AuditLog(userId: nat, action: string)

  /** `Resident.query.get(resident_id)`: the resident with that id, if any. */
  function FindResident(residents: seq<Resident>, id: nat): (r: Option<Resident>)
    ensures r.Some? ==> r.value in residents && r.value.id == id
    ensures r.None? ==> forall i :: 0 <= i < |residents| ==> residents[i].id != id
  {
    Find(residents, (x: Resident) => x.id == id)
  }
}

=== FILE: report.dfy ===
/**
  The resident report page (`report`, app.py:948-1081) without its PDF
  drawing: the reporting window read from the query string, the list of
  days it covers, the per-day meal counts and the three chart series built
  from them, and the download name of the exported file.
*/
module Report {
  import opened Maybe
  import opened Text
  import opened Dates
  import opened Records
  import opened Seqs

  // ---------------------------------------------------------------------
  // The window

  /** The first and last day of the report; `flashed` records the
      "Invalid date format" message shown when the window fell back to the
      default. */
  datatype Window = Window(start: Date, end: Date, flashed: bool)

  /** Reads `start_date` and `end_date` (absent arguments are `None`).  The
      default start `today - 7 days` is computed even when `start_date` is
      given, so a `today` in the first week of year 1 raises `OverflowError`
      (`None`).  When either argument fails `strptime('%Y-%m-%d')`, both
      fall back to the last seven days. */
  function ReportWindow(startArg: Option<string>, endArg: Option<string>, today: Date): (r: Option<Window>)
    ensures r.None? <==> Ordinal(today) <= 7
    ensures r.Some? ==>
              (r.value.flashed <==> (startArg.Some? && ParseIso(startArg.value).None?)
                                    || (endArg.Some? && ParseIso(endArg.value).None?))
    ensures r.Some? && r.value.flashed ==> Ordinal(r.value.start) == Ordinal(today) - 7 && r.value.end == today
    ensures r.Some? && !r.value.flashed ==>
              && (if startArg.Some? then ParseIso(startArg.value) == Some(r.value.start)
                  else Ordinal(r.value.start) == Ordinal(today) - 7)
              && (if endArg.Some? then ParseIso(endArg.value) == Some(r.value.end) else r.value.end == today)
  {
    match AddDays(today, -7)
    case None => None
    case Some(weekAgo) =>
      ParseIsoFormat(weekAgo);
      ParseIsoFormat(today);
      var s := ParseIso(startArg.GetOr(IsoFormat(weekAgo)));
      var e := ParseIso(endArg.GetOr(IsoFormat(today)));
      if s.Some? && e.Some? then
        Some(Window(s.value, e.value, false))
      else
        Some(Window(weekAgo, today, true))
  }

  /** Without query arguments the report covers the eight days from a week ago
      through today, with no message. */
  lemma DefaultWindow(today: Date)
    requires Ordinal(today) > 7
    ensures var r := ReportWindow(None, None, today);
            && r.Some? && !r.value.flashed
            && Ordinal(r.value.start) == Ordinal(today) - 7 && r.value.end == today
  {
    var weekAgo := AddDays(today, -7).value;
    ParseIsoFormat(weekAgo);
    ParseIsoFormat(today);
  }

  /** Dates given in ISO form are taken exactly as given, in either order. */
  lemma ExplicitWindow(start: Date, end: Date, today: Date)
    requires Ordinal(today) > 7
    ensures ReportWindow(Some(IsoFormat(start)), Some(IsoFormat(end)), today) == Some(Window(start, end, false))
  {
    ParseIsoFormat(start);
    ParseIsoFormat(end);
  }

  // ---------------------------------------------------------------------
  // The days covered

  /** The dates with ordinals `first..last`. */
  function OrdinalRun(first: int, last: int): (r: seq<Date>)
    requires 1 <= first && last <= MaxOrdinal
    ensures |r| == if first <= last then last - first + 1 else 0
    ensures forall i :: 0 <= i < |r| ==> Ordinal(r[i]) == first + i
    decreases last - first
  {
    if first > last then [] else [FromOrdinal(first)] + OrdinalRun(first + 1, last)
  }

  /** `date_range`: `start + timedelta(days=x)` for `x` in
      `range((end - start).days + 1)`, empty when `end` precedes `start`. */
  function DateRange(start: Date, end: Date): (r: seq<Date>)
    ensures |r| == if Before(end, start) then 0 else Ordinal(end) - Ordinal(start) + 1
    ensures forall i :: 0 <= i < |r| ==> Ordinal(r[i]) == Ordinal(start) + i
  {
    OrdinalRange(start);
    OrdinalRange(end);
    OrdinalOrder(end, start);
    OrdinalRun(Ordinal(start), Ordinal(end))
  }

  /** A date is listed exactly when it lies in the window, and the list is in
      strictly increasing date order. */
  lemma DateRangeMembers(start: Date, end: Date, d: Date)
    ensures d in DateRange(start, end) <==> !Before(d, start) && !Before(end, d)
    ensures forall i, j :: 0 <= i < j < |DateRange(start, end)| ==>
              Before(DateRange(start, end)[i], DateRange(start, end)[j])
  {
    var r := DateRange(start, end);
    OrdinalOrder(d, start);
    OrdinalOrder(end, d);
    if !Before(d, start) && !Before(end, d) {
      var i := Ordinal(d) - Ordinal(start);
      OrdinalOrder(r[i], d);
    }
    forall i, j | 0 <= i < j < |r| ensures Before(r[i], r[j]) {
      OrdinalOrder(r[i], r[j]);
    }
  }

  // ---------------------------------------------------------------------
  // Meal counts and the chart

  /** The breakfast, lunch and dinner counters of one day. */
  datatype Tally = Tally(breakfast: nat, lunch: nat, dinner: nat) {
    function Get(m: Meal): nat {
      match m
      case Breakfast => breakfast
      case Lunch => lunch
      case Dinner => dinner
    }

    /** `meal_counts[date_str][meal_type] += 1`. */
    function Inc(m: Meal): (t: Tally)
      ensures t.Get(m) == Get(m) + 1
      ensures forall o: Meal :: o != m ==> t.Get(o) == Get(o)
    {
      match m
      case Breakfast => this.(breakfast := breakfast + 1)
      case Lunch => this.(lunch := lunch + 1)
      case Dinner => this.(dinner := dinner + 1)
    }
  }

  /** An intake logged on day `d` for meal `m`. */
  function IsMealOn(d: Date, m: Meal): FoodIntake -> bool {
    (f: FoodIntake) => f.date == d && f.meal == m
  }

  /** How many of `foods` were logged on `d` for `m`. */
  function CountMeal(foods: seq<FoodIntake>, d: Date, m: Meal): nat {
    Count(foods, IsMealOn(d, m))
  }

  /** One more intake adds one to exactly the counter of its own day and meal. */
  lemma CountMealSnoc(foods: seq<FoodIntake>, n: nat, d: Date, m: Meal)
    requires n < |foods|
    ensures CountMeal(foods[..n + 1], d, m)
            == CountMeal(foods[..n], d, m) + (if foods[n].date == d && foods[n].meal == m then 1 else 0)
  {
    assert foods[..n + 1][..n] == foods[..n];
  }

  /** The zeroed counters: one key per day of the range. */
  method ZeroCounts(days: seq<Date>) returns (counts: map<string, Tally>)
    ensures forall i :: 0 <= i < |days| ==> IsoFormat(days[i]) in counts && counts[IsoFormat(days[i])] == Tally(0, 0, 0)
    ensures forall k :: k in counts ==> exists i :: 0 <= i < |days| && IsoFormat(days[i]) == k
  {
    counts := map[];
    var j := 0;
    while j < |days|
      invariant 0 <= j <= |days|
      invariant forall i :: 0 <= i < j ==> IsoFormat(days[i]) in counts && counts[IsoFormat(days[i])] == Tally(0, 0, 0)
      invariant forall k :: k in counts ==> exists i :: 0 <= i < j && IsoFormat(days[i]) == k
    {
      counts := counts[IsoFormat(days[j]) := Tally(0, 0, 0)];
      j := j + 1;
    }
  }

  /** The counters after intake `f` has been tallied. */
  function Tally1(counts: map<string, Tally>, f: FoodIntake): (r: map<string, Tally>)
    ensures r.Keys == counts.Keys
  {
    var key := IsoFormat(f.date);
    if key in counts then counts[key := counts[key].Inc(f.meal)] else counts
  }

  /** The keys of `counts` are exactly the ISO texts of `days`. */
  predicate KeysAre(counts: map<string, Tally>, days: seq<Date>) {
    && (forall i :: 0 <= i < |days| ==> IsoFormat(days[i]) in counts)
    && (forall k :: k in counts ==> exists i :: 0 <= i < |days| && IsoFormat(days[i]) == k)
  }

  /** Each day's counter holds the number of `foods` of that day and meal. */
  predicate CountsOf(counts: map<string, Tally>, days: seq<Date>, foods: seq<FoodIntake>) {
    forall i, m :: 0 <= i < |days| && IsoFormat(days[i]) in counts ==>
      counts[IsoFormat(days[i])].Get(m) == CountMeal(foods, days[i], m)
  }

  /** Tallying intake `n` turns counts of `foods[..n]` into counts of `foods[..n + 1]`. */
  lemma TallyStep(counts: map<string, Tally>, days: seq<Date>, foods: seq<FoodIntake>, n: nat)
    requires n < |foods|
    requires CountsOf(counts, days, foods[..n])
    ensures CountsOf(Tally1(counts, foods[n]), days, foods[..n + 1])
  {
    var f := foods[n];
    var after := Tally1(counts, f);
    forall i, m | 0 <= i < |days| && IsoFormat(days[i]) in after
      ensures after[IsoFormat(days[i])].Get(m) == CountMeal(foods[..n + 1], days[i], m)
    {
      CountMealSnoc(foods, n, days[i], m);
      if IsoFormat(days[i]) == IsoFormat(f.date) {
        IsoFormatInjective(days[i], f.date);
      }
    }
  }

  lemma TallyKeys(counts: map<string, Tally>, days: seq<Date>, f: FoodIntake)
    requires KeysAre(counts, days)
    ensures KeysAre(Tally1(counts, f), days)
  {
    assert Tally1(counts, f).Keys == counts.Keys;
  }

  /** `meal_counts`: one zeroed counter per day of the range, keyed by the
      day's ISO text, then one increment per intake whose day is a key. */
  method MealCounts(days: seq<Date>, foods: seq<FoodIntake>) returns (counts: map<string, Tally>)
    ensures forall i :: 0 <= i < |days| ==> IsoFormat(days[i]) in counts
    ensures forall k :: k in counts ==> exists i :: 0 <= i < |days| && IsoFormat(days[i]) == k
    ensures forall i, m :: 0 <= i < |days| ==> counts[IsoFormat(days[i])].Get(m) == CountMeal(foods, days[i], m)
  {
    counts := ZeroCounts(days);
    assert foods[..0] == [];
    var n := 0;
    while n < |foods|
      invariant 0 <= n <= |foods|
      invariant KeysAre(counts, days) && CountsOf(counts, days, foods[..n])
    {
      TallyStep(counts, days, foods, n);
      TallyKeys(counts, days, foods[n]);
      counts := Tally1(counts, foods[n]);
      n := n + 1;
    }
    assert foods[..|foods|] == foods;
  }

  /** `chart_labels` and `chart_data`: one label and one count per meal for
      each day of the range. */
  datatype Chart = Chart(labels: seq<string>, breakfast: seq<nat>, lunch: seq<nat>, dinner: seq<nat>) {
    function Series(m: Meal): seq<nat> {
      match m
      case Breakfast => breakfast
      case Lunch => lunch
      case Dinner => dinner
    }
  }

  method ChartData(days: seq<Date>, foods: seq<FoodIntake>) returns (chart: Chart)
    ensures |chart.labels| == |days| && forall i :: 0 <= i < |days| ==> chart.labels[i] == IsoFormat(days[i])
    ensures forall m: Meal :: |chart.Series(m)| == |days|
    ensures forall m: Meal, i :: 0 <= i < |days| ==> chart.Series(m)[i] == CountMeal(foods, days[i], m)
  {
    var counts := MealCounts(days, foods);
    chart := ChartOf(days, counts);
  }

  /** The labels and series read off counters that hold every day. */
  function ChartOf(days: seq<Date>, counts: map<string, Tally>): (c: Chart)
    requires forall i :: 0 <= i < |days| ==> IsoFormat(days[i]) in counts
    ensures |c.labels| == |days| && forall i :: 0 <= i < |days| ==> c.labels[i] == IsoFormat(days[i])
    ensures forall m: Meal :: |c.Series(m)| == |days|
    ensures forall m: Meal, i :: 0 <= i < |days| ==> c.Series(m)[i] == counts[IsoFormat(days[i])].Get(m)
  {
    var labels := seq(|days|, i requires 0 <= i < |days| => IsoFormat(days[i]));
    Chart(labels, SeriesOf(labels, counts, Breakfast), SeriesOf(labels, counts, Lunch),
          SeriesOf(labels, counts, Dinner))
  }

  /** The series of one meal: each label's counter for that meal. */
  function SeriesOf(labels: seq<string>, counts: map<string, Tally>, m: Meal): (r: seq<nat>)
    requires forall i :: 0 <= i < |labels| ==> labels[i] in counts
    ensures |r| == |labels| && forall i :: 0 <= i < |labels| ==> r[i] == counts[labels[i]].Get(m)
  {
    seq(|labels|, i requires 0 <= i < |labels| => counts[labels[i]].Get(m))
  }

  // ---------------------------------------------------------------------
  // The rows the report reads

  /** `FoodIntake.query.filter_by(resident_id=...).filter(date.between(start, end))`. */
  function FoodsInWindow(foods: seq<FoodIntake>, residentId: nat, w: Window): seq<FoodIntake> {
    Filter(foods, (f: FoodIntake) => f.residentId == residentId && !Before(f.date, w.start) && !Before(w.end, f.date))
  }

  /** An intake of this resident logged on `d` for `m`. */
  function ResidentMealOn(residentId: nat, d: Date, m: Meal): FoodIntake -> bool {
    (f: FoodIntake) => f.residentId == residentId && f.date == d && f.meal == m
  }

  /** Counting among the selected rows is counting among all rows under both
      conditions. */
  lemma {:induction false} CountFilter<T>(s: seq<T>, p: T -> bool, q: T -> bool, pq: T -> bool)
    requires forall x :: pq(x) == (p(x) && q(x))
    ensures Count(Filter(s, p), q) == Count(s, pq)
  {
    if |s| > 0 {
      CountFilter(s[1..], p, q, pq);
      CountFront(s, pq);
      if p(s[0]) {
        var t := [s[0]] + Filter(s[1..], p);
        assert t[1..] == Filter(s[1..], p);
        CountFront(t, q);
      }
    }
  }

  /** For every day in the window, the count the chart shows is the number of
      this resident's intakes on that day for that meal, among all rows. */
  lemma WindowCounts(foods: seq<FoodIntake>, residentId: nat, w: Window, d: Date, m: Meal)
    requires !Before(d, w.start) && !Before(w.end, d)
    ensures CountMeal(FoodsInWindow(foods, residentId, w), d, m) == Count(foods, ResidentMealOn(residentId, d, m))
  {
    var p := (f: FoodIntake) => f.residentId == residentId && !Before(f.date, w.start) && !Before(w.end, f.date);
    CountFilter(foods, p, IsMealOn(d, m), ResidentMealOn(residentId, d, m));
  }

  /** The chart of a report: the days of the window and, for each, a label and
      the number of the resident's intakes for each meal. */
  method ReportChart(foods: seq<FoodIntake>, residentId: nat, w: Window) returns (days: seq<Date>, chart: Chart)
    ensures days == DateRange(w.start, w.end)
    ensures |chart.labels| == |days| && forall i :: 0 <= i < |days| ==> chart.labels[i] == IsoFormat(days[i])
    ensures forall m: Meal :: |chart.Series(m)| == |days|
    ensures forall m: Meal, i :: 0 <= i < |days| ==>
              chart.Series(m)[i] == Count(foods, ResidentMealOn(residentId, days[i], m))
  {
    days := DateRange(w.start, w.end);
    chart := ChartData(days, FoodsInWindow(foods, residentId, w));
    forall m: Meal, i | 0 <= i < |days|
      ensures chart.Series(m)[i] == Count(foods, ResidentMealOn(residentId, days[i], m))
    {
      DateRangeMembers(w.start, w.end, days[i]);
      WindowCounts(foods, residentId, w, days[i], m);
    }
  }

  // ---------------------------------------------------------------------
  // The download name

  /** Characters `[\w\-]` keeps: ASCII letters, digits, `_` and `-`. */
  predicate IsSafeChar(c: char) {
    IsAsciiLetter(c) || IsAsciiDigit(c) || c == '_' || c == '-'
  }

  /** `re.sub(r'[^\w\-]', '_', name)`. */
  function SafeName(name: string): (r: string)
    ensures |r| == |name|
    ensures forall i :: 0 <= i < |r| ==> IsSafeChar(r[i])
    ensures forall i :: 0 <= i < |r| ==> (r[i] == name[i] <==> IsSafeChar(name[i]))
  {
    seq(|name|, i requires 0 <= i < |name| => if IsSafeChar(name[i]) then name[i] else '_')
  }

  /** A name made only of kept characters comes out unchanged, so the
      replacement is idempotent. */
  lemma SafeNameFixed(name: string)
    ensures (forall i :: 0 <= i < |name| ==> IsSafeChar(name[i])) <==> SafeName(name) == name
    ensures SafeName(SafeName(name)) == SafeName(name)
  {
  }

  /** `report_{safe_name}_{start_date}_to_{end_date}.pdf`. */
  function ReportFileName(name: string, w: Window): (r: string)
    ensures |r| == |name| + 36
    ensures r[..7] == "report_" && r[7..7 + |name|] == SafeName(name) && r[|r| - 4..] == ".pdf"
  {
    "report_" + SafeName(name) + "_" + IsoFormat(w.start) + "_to_" + IsoFormat(w.end) + ".pdf"
  }

  /** Whatever the resident is called, the download name holds no path
      separator and no character a header would need quoted. */
  lemma ReportFileNameSafe(name: string, w: Window)
    ensures forall i :: 0 <= i < |ReportFileName(name, w)| ==>
              IsSafeChar(ReportFileName(name, w)[i]) || ReportFileName(name, w)[i] == '.'
  {
  }
}

=== FILE: resident_model.dfy ===
/**
  The encrypted `Resident` row of models.py: the `EncryptedText` column
  type, the pass-through accessors, and `dob`, which is kept as a
  `'YYYY-MM-DD'` string and parsed back on every read.  The Fernet cipher is
  a pair of functions supplied by the caller.
*/
module ResidentModel {
  import opened Maybe
  import opened Text
  import opened Dates

  // ---------------------------------------------------------------------
  // EncryptedText

  /** `process_bind_param`: `None` is stored as `None`, any text encrypted. */
  function Bind(value: Option<string>, encrypt: string -> string): (r: Option<string>)
    ensures r.None? <==> value.None?
  {
    match value
    case None => None
    case Some(v) => Some(encrypt(v))
  }

  /** `process_result_value`: `None` is read as `None`, any text decrypted. */
  function Load(value: Option<string>, decrypt: string -> string): (r: Option<string>)
    ensures r.None? <==> value.None?
  {
    match value
    case None => None
    case Some(v) => Some(decrypt(v))
  }

  /** Whenever decryption undoes encryption, a value read back after being
      stored is the value stored. */
  lemma BindLoad(value: Option<string>, encrypt: string -> string, decrypt: string -> string)
    requires forall s :: decrypt(encrypt(s)) == s
    ensures Load(Bind(value, encrypt), decrypt) == value
  {
  }

  // ---------------------------------------------------------------------
  // The row and its accessors

  /** The four encrypted columns, as plain text. */
  datatype ResidentRow = ResidentRow(
    name: Option<string>, dob: Option<string>, medicalInfo: Option<string>, emergencyContact: Option<string>)

  /** The row's columns as they sit in the database. */
  function Store(row: ResidentRow, encrypt: string -> string): ResidentRow {
    ResidentRow(Bind(row.name, encrypt), Bind(row.dob, encrypt),
                Bind(row.medicalInfo, encrypt), Bind(row.emergencyContact, encrypt))
  }

  function Fetch(stored: ResidentRow, decrypt: string -> string): ResidentRow {
    ResidentRow(Load(stored.name, decrypt), Load(stored.dob, decrypt),
                Load(stored.medicalInfo, decrypt), Load(stored.emergencyContact, decrypt))
  }

  /** The `name`, `medical_info` and `emergency_contact` properties. */
  datatype TextField = Name | MedicalInfo | EmergencyContact

  function Get(row: ResidentRow, f: TextField): Option<string> {
    match f
    case Name => row.name
    case MedicalInfo => row.medicalInfo
    case EmergencyContact => row.emergencyContact
  }

  function Set(row: ResidentRow, f: TextField, value: Option<string>): (r: ResidentRow)
    ensures r.dob == row.dob
  {
    match f
    case Name => row.(name := value)
    case MedicalInfo => row.(medicalInfo := value)
    case EmergencyContact => row.(emergencyContact := value)
  }

  /** The accessors pass values through: a field reads back what was set on
      it, and setting one field leaves the others alone. */
  lemma SetThenGet(row: ResidentRow, f: TextField, g: TextField, value: Option<string>)
    ensures Get(Set(row, f, value), f) == value
    ensures g != f ==> Get(Set(row, f, value), g) == Get(row, g)
  {
  }

  // ---------------------------------------------------------------------
  // Date of birth

  /** What may be assigned to `dob`: nothing, a string, or a date. */
  datatype DobValue = NoDob | DobText(text: string) | DobDate(date: Date)

  /** `if value:` -- `None` and the empty string are falsy; a date never is. */
  predicate Truthy(v: DobValue) {
    match v
    case NoDob => false
    case DobText(s) => s != ""
    case DobDate(_) => true
  }

  /** The `dob` setter: text is stored verbatim, a date as
      `strftime('%Y-%m-%d')`, anything falsy as `None`. */
  function SetDob(row: ResidentRow, v: DobValue): (r: ResidentRow)
    ensures r.name == row.name && r.medicalInfo == row.medicalInfo && r.emergencyContact == row.emergencyContact
    ensures r.dob.None? <==> !Truthy(v)
    ensures v.DobText? && Truthy(v) ==> r.dob == Some(v.text)
    ensures v.DobDate? ==> |r.dob.value| == 10
  {
    match v
    case NoDob => row.(dob := None)
    case DobText(s) => if s == "" then row.(dob := None) else row.(dob := Some(s))
    case DobDate(d) => row.(dob := Some(IsoFormat(d)))
  }

  /** The `dob` getter: `None` for a missing or empty column, otherwise the
      parsed date, or `None` where `strptime` raises. */
  function GetDob(row: ResidentRow): (r: Option<Date>)
    ensures r.Some? ==> row.dob.Some? && ParseIso(row.dob.value) == r
    ensures row.dob.Some? && ParseIso(row.dob.value).Some? ==> r == ParseIso(row.dob.value)
  {
    match row.dob
    case None => None
    case Some(s) => if s == "" then None else ParseIso(s)
  }

  /** A date set on `dob` reads back as the same date, and a falsy value reads
      back as `None`. */
  lemma DobRoundTrip(row: ResidentRow, v: DobValue)
    ensures v.DobDate? ==> GetDob(SetDob(row, v)) == Some(v.date)
    ensures !Truthy(v) ==> GetDob(SetDob(row, v)) == None
  {
    if v.DobDate? {
      ParseIsoFormat(v.date);
    }
  }

  /** The round trip survives encryption at rest. */
  lemma DobThroughStorage(row: ResidentRow, d: Date, encrypt: string -> string, decrypt: string -> string)
    requires forall s :: decrypt(encrypt(s)) == s
    ensures GetDob(Fetch(Store(SetDob(row, DobDate(d)), encrypt), decrypt)) == Some(d)
  {
    var r := SetDob(row, DobDate(d));
    BindLoad(r.dob, encrypt, decrypt);
    ParseIsoFormat(d);
  }

  /** Text that `strptime('%Y-%m-%d')` rejects reads back as `None` instead of
      raising. */
  lemma MalformedDob(row: ResidentRow, s: string)
    ensures ParseIso(s).None? ==> GetDob(SetDob(row, DobText(s))) == None
  {
  }

  /** Two texts `strptime` rejects: another layout, and a day the month does
      not have. */
  lemma MalformedDobExamples()
    ensures ParseIso("01/02/1950").None? && ParseIso("1950-02-30").None?
  {
  }

  /** `strptime` does not insist on two-digit months and days. */
  lemma UnpaddedDob(row: ResidentRow)
    ensures GetDob(SetDob(row, DobText("1950-2-3"))) == Some(Ymd(1950, 2, 3))
  {
    var s := "1950-2-3";
    assert s[..4] == "1950";
    assert DigitsValue("1") == 1 by { assert "1"[..0] == ""; }
    assert DigitsValue("19") == 19 by { assert "19"[..1] == "1"; }
    assert DigitsValue("195") == 195 by { assert "195"[..2] == "19"; }
    assert DigitsValue("1950") == 1950 by { assert "1950"[..3] == "195"; }
  }

  /** `formatted_dob`: `strftime('%B %d, %Y')` of the date, `None` exactly when
      the getter gives `None`. */
  function FormattedDob(row: ResidentRow): (r: Option<string>)
    ensures r.None? <==> GetDob(row).None?
    ensures r.Some? ==> r.value == LongFormat(GetDob(row).value)
  {
    match GetDob(row)
    case None => None
    case Some(d) => Some(LongFormat(d))
  }

  /** A date set on `dob` is displayed in its long form. */
  lemma FormattedDobOfDate(row: ResidentRow, d: Date)
    ensures FormattedDob(SetDob(row, DobDate(d))) == Some(LongFormat(d))
  {
    DobRoundTrip(row, DobDate(d));
  }
}

=== FILE: sanitize.dfy ===
/**
  `sanitize_input` (app.py): every free-text field the application stores
  passes through it.  A truthy string has each match of the regular
  expression `<[^>]+>` removed, scanning left to right as `re.sub` does, and
  the result is stripped; `None` and the empty string come back unchanged.
*/
module Sanitize {
  import opened Maybe
  import opened Text

  /** Index of the first `>` in `s`, or `|s|` when there is none. */
  function FindClose(s: string): (k: nat)
    ensures k <= |s|
    ensures k < |s| ==> s[k] == '>'
    ensures forall i :: 0 <= i < k ==> s[i] != '>'
  {
    if |s| == 0 || s[0] == '>' then 0 else 1 + FindClose(s[1..])
  }

  /** Length of the match of `<[^>]+>` at the start of `s`, 0 when it does not
      match there.  `[^>]+` is greedy and cannot cross a `>`, so the match, if
      any, ends at the first `>` after the `<`. */
  function TagLength(s: string): (n: nat)
    ensures n == 0 || (3 <= n <= |s| && s[0] == '<' && s[n - 1] == '>')
  {
    if |s| > 0 && s[0] == '<' then
      var k := FindClose(s[1..]);
      if 1 <= k < |s| - 1 then k + 2 else 0
    else 0
  }

  /** `re.sub(r'<[^>]+>', '', s)`. */
  function RemoveTags(s: string): string
    decreases |s|
  {
    if |s| == 0 then []
    else if TagLength(s) > 0 then RemoveTags(s[TagLength(s)..])
    else [s[0]] + RemoveTags(s[1..])
  }

  /** `s[i..j+1]` is a markup span: a `<`, at least one character other than
      `>`, then the first `>`. */
  predicate SpanAt(s: string, i: int, j: int) {
    && 0 <= i && i + 1 < j < |s|
    && s[i] == '<' && s[j] == '>'
    && forall k :: i < k < j ==> s[k] != '>'
  }

  predicate NoTagSpan(s: string) {
    forall i, j | 0 <= i < j < |s| :: !SpanAt(s, i, j)
  }

  /** `sanitize_input(text)`: falsy input is returned as it came; anything
      else loses every markup span and its surrounding whitespace. */
  function SanitizeInput(text: Option<string>): (r: Option<string>)
    ensures text.None? <==> r.None?
    ensures text == Some("") ==> r == Some("")
    ensures r.Some? ==> NoTagSpan(r.value)
    ensures r.Some? && |r.value| > 0 ==> !IsSpace(r.value[0]) && !IsSpace(r.value[|r.value| - 1])
    ensures r.Some? ==> |r.value| <= |text.value|
  {
    match text
    case None => None
    case Some(t) =>
      if t == "" then Some(t)
      else
        CleanedText(t);
        Some(Strip(RemoveTags(t)))
  }

  lemma CleanedText(t: string)
    ensures NoTagSpan(Strip(RemoveTags(t)))
    ensures |Strip(RemoveTags(t))| <= |t|
  {
    var w := RemoveTags(t);
    RemoveTagsNoSpan(t);
    RemoveTagsShrinks(t);
    NoTagSpanStrip(w);
  }

  lemma NoTagSpanStrip(w: string)
    requires NoTagSpan(w)
    ensures NoTagSpan(Strip(w))
  {
    var u := Strip(w);
    var a := StripStart(w);
    assert u == w[a..a + |u|];
    NoTagSpanSlice(w, a, a + |u|);
  }

  // ---------------------------------------------------------------------
  // Why the result holds no markup span

  lemma {:induction false} RemoveTagsShrinks(s: string)
    ensures |RemoveTags(s)| <= |s|
    decreases |s|
  {
    if |s| > 0 {
      if TagLength(s) > 0 {
        RemoveTagsShrinks(s[TagLength(s)..]);
      } else {
        RemoveTagsShrinks(s[1..]);
      }
    }
  }

  /** Removing tags never introduces a `>`. */
  lemma {:induction false} RemoveTagsKeepsNoClose(s: string)
    requires !Contains(s, '>')
    ensures !Contains(RemoveTags(s), '>')
    decreases |s|
  {
    if |s| > 0 {
      assert TagLength(s) == 0;
      assert !Contains(s[1..], '>') by {
        forall i | 0 <= i < |s| - 1 ensures s[1..][i] != '>' {
          assert s[1..][i] == s[i + 1];
        }
      }
      RemoveTagsKeepsNoClose(s[1..]);
    }
  }

  /** Prepending one character to a span-free string keeps it span-free when
      that character is not a `<` that a later `>` could close. */
  lemma ConsNoSpan(c: char, t: string)
    requires NoTagSpan(t)
    requires c == '<' ==> !Contains(t, '>') || t[0] == '>'
    ensures NoTagSpan([c] + t)
  {
    var s := [c] + t;
    forall i, j
      ensures !SpanAt(s, i, j)
    {
      if i == 0 && 1 < j < |s| && c == '<' && s[j] == '>' {
        assert t[j - 1] == '>';
        assert s[1] == '>';
      }
      if SpanAt(s, i, j) && i > 0 {
        forall k | i - 1 < k < j - 1 ensures t[k] != '>' {
          assert t[k] == s[k + 1];
        }
        assert SpanAt(t, i - 1, j - 1);
      }
    }
  }

  lemma {:induction false} RemoveTagsNoSpan(s: string)
    ensures NoTagSpan(RemoveTags(s))
    decreases |s|
  {
    if |s| == 0 {
    } else if TagLength(s) > 0 {
      RemoveTagsNoSpan(s[TagLength(s)..]);
    } else {
      var rest := s[1..];
      RemoveTagsNoSpan(rest);
      if s[0] == '<' {
        var k := FindClose(rest);
        if k == |rest| {
          assert !Contains(rest, '>');
          RemoveTagsKeepsNoClose(rest);
        } else {
          assert k == 0 && rest[0] == '>';
          assert TagLength(rest) == 0;
          assert RemoveTags(rest)[0] == '>';
        }
      }
      ConsNoSpan(s[0], RemoveTags(rest));
    }
  }

  lemma NoTagSpanSlice(s: string, a: int, b: int)
    requires NoTagSpan(s)
    requires 0 <= a <= b <= |s|
    ensures NoTagSpan(s[a..b])
  {
    var t := s[a..b];
    forall i, j
      ensures !SpanAt(t, i, j)
    {
      if SpanAt(t, i, j) {
        assert SpanAt(s, i + a, j + a);
      }
    }
  }

  // ---------------------------------------------------------------------
  // Sanitizing twice changes nothing

  /** A span-free string has no tag to remove. */
  lemma {:induction false} RemoveTagsFixed(s: string)
    requires NoTagSpan(s)
    ensures RemoveTags(s) == s
    decreases |s|
  {
    if |s| > 0 {
      if TagLength(s) > 0 {
        var n := TagLength(s);
        assert SpanAt(s, 0, n - 1);
      }
      NoTagSpanSlice(s, 1, |s|);
      assert s[1..|s|] == s[1..];
      RemoveTagsFixed(s[1..]);
      assert [s[0]] + s[1..] == s;
    }
  }

  lemma SanitizeIdempotent(text: Option<string>)
    ensures SanitizeInput(SanitizeInput(text)) == SanitizeInput(text)
  {
    var r := SanitizeInput(text);
    if r.Some? && r.value != "" {
      RemoveTagsFixed(r.value);
      StripFixed(r.value);
    }
  }

  /** Text without a `<` is only stripped. */
  lemma {:induction false} RemoveTagsPlainText(s: string)
    requires !Contains(s, '<')
    ensures RemoveTags(s) == s
    decreases |s|
  {
    if |s| > 0 {
      assert !Contains(s[1..], '<') by {
        forall i | 0 <= i < |s| - 1 ensures s[1..][i] != '<' {
          assert s[1..][i] == s[i + 1];
        }
      }
      RemoveTagsPlainText(s[1..]);
      assert [s[0]] + s[1..] == s;
    }
  }

  lemma SanitizePlainText(t: string)
    requires !Contains(t, '<')
    ensures SanitizeInput(Some(t)) == Some(Strip(t))
  {
    if t != "" {
      RemoveTagsPlainText(t);
    }
  }
}

=== FILE: seqs.dfy ===
/** Sequence helpers standing in for the list comprehensions and query filters of the source. */
module Seqs {
  import opened Maybe

  /** The first element `p` accepts, as `query.get(id)` returns the row with
      that id: `None` exactly when no element is accepted. */
  function Find<T>(s: seq<T>, p: T -> bool): (r: Option<T>)
    ensures r.Some? ==> r.value in s && p(r.value)
    ensures r.None? ==> forall i :: 0 <= i < |s| ==> !p(s[i])
  {
    if |s| == 0 then None
    else if p(s[0]) then Some(s[0])
    else Find(s[1..], p)
  }

  /** `[x for x in s if p(x)]`: keeps order and drops exactly the elements `p` rejects. */
  function Filter<T>(s: seq<T>, p: T -> bool): (r: seq<T>)
    ensures |r| <= |s|
    ensures forall i :: 0 <= i < |r| ==> p(r[i])
  {
    if |s| == 0 then []
    else if p(s[0]) then [s[0]] + Filter(s[1..], p)
    else Filter(s[1..], p)
  }

  /** `len([x for x in s if p(x)])`, i.e. a query's `.count()`. */
  function Count<T>(s: seq<T>, p: T -> bool): (n: nat)
    ensures n <= |s|
    ensures n == 0 <==> forall i :: 0 <= i < |s| ==> !p(s[i])
  {
    if |s| == 0 then 0
    else Count(s[..|s| - 1], p) + (if p(s[|s| - 1]) then 1 else 0)
  }

  /** An element is kept exactly when it is in `s` and `p` accepts it. */
  lemma {:induction false} FilterMembers<T>(s: seq<T>, p: T -> bool, x: T)
    ensures x in Filter(s, p) <==> x in s && p(x)
  {
    if |s| > 0 {
      FilterMembers(s[1..], p, x);
      assert s == [s[0]] + s[1..];
    }
  }

  lemma {:induction false} FilterCount<T>(s: seq<T>, p: T -> bool)
    ensures |Filter(s, p)| == Count(s, p)
  {
    if |s| > 0 {
      FilterCount(s[1..], p);
      CountFront(s, p);
    }
  }

  /** `Count` may as well peel its first element. */
  lemma {:induction false} CountFront<T>(s: seq<T>, p: T -> bool)
    requires |s| > 0
    ensures Count(s, p) == (if p(s[0]) then 1 else 0) + Count(s[1..], p)
  {
    if |s| > 1 {
      assert s[1..][..|s| - 2] == s[..|s| - 1][1..];
      CountFront(s[..|s| - 1], p);
    }
  }
}

=== FILE: text.dfy ===
/**
  Character classes and string helpers shared by the rest of the model:
  Python's notion of whitespace (what `str.strip()` removes and what
  WTForms' `DataRequired` treats as blank), ASCII digits and letters,
  suffix tests, and decimal rendering of natural numbers (`str(n)` and
  `'%02d'`-style fixed-width fields).
*/
module Text {

  /** Python's `str.isspace()`: the characters `str.strip()` removes. */
  predicate IsSpace(c: char) {
    || c == ' '
    || ('\t' <= c <= '\r')                 // \t \n \x0b \x0c \r
    || ('\U{1C}' <= c <= '\U{1F}')         // file/group/record/unit separators
    || c == '\U{85}' || c == '\U{A0}' || c == '\U{1680}'
    || ('\U{2000}' <= c <= '\U{200A}')
    || c == '\U{2028}' || c == '\U{2029}' || c == '\U{202F}' || c == '\U{205F}'
    || c == '\U{3000}'
  }

  predicate IsAsciiDigit(c: char) { '0' <= c <= '9' }

  predicate IsAsciiUpper(c: char) { 'A' <= c <= 'Z' }

  predicate IsAsciiLetter(c: char) { IsAsciiUpper(c) || 'a' <= c <= 'z' }

  /** Lower-cases the ASCII letters A-Z and leaves every other character alone. */
  function AsciiLower(c: char): char {
    if IsAsciiUpper(c) then (c as int + 32) as char else c
  }

  function Lower(s: string): string {
    seq(|s|, i requires 0 <= i < |s| => AsciiLower(s[i]))
  }

  /** Python's `s.endswith(suffix)`. */
  predicate EndsWith(s: string, suffix: string) {
    |suffix| <= |s| && s[|s| - |suffix|..] == suffix
  }

  predicate Contains(s: string, c: char) {
    exists i :: 0 <= i < |s| && s[i] == c
  }

  /** Removes leading whitespace (`str.lstrip()`). */
  function LStrip(s: string): (r: string)
    ensures |r| <= |s| && r == s[|s| - |r|..]
    ensures forall i :: 0 <= i < |s| - |r| ==> IsSpace(s[i])
    ensures |r| > 0 ==> !IsSpace(r[0])
  {
    if |s| > 0 && IsSpace(s[0]) then LStrip(s[1..]) else s
  }

  /** Removes trailing whitespace (`str.rstrip()`). */
  function RStrip(s: string): (r: string)
    ensures |r| <= |s| && r == s[..|r|]
    ensures forall i :: |r| <= i < |s| ==> IsSpace(s[i])
    ensures |r| > 0 ==> !IsSpace(r[|r| - 1])
  {
    if |s| > 0 && IsSpace(s[|s| - 1]) then RStrip(s[..|s| - 1]) else s
  }

  /** Number of leading whitespace characters `Strip` drops. */
  function StripStart(s: string): nat {
    |s| - |LStrip(s)|
  }

  /** Python's `str.strip()`: `r` is the slice of `s` left after whitespace is
      removed from both ends; it neither starts nor ends with whitespace, and
      everything dropped was whitespace. */
  function Strip(s: string): (r: string)
    ensures StripStart(s) + |r| <= |s|
    ensures r == s[StripStart(s)..StripStart(s) + |r|]
    ensures forall i :: 0 <= i < StripStart(s) ==> IsSpace(s[i])
    ensures forall i :: StripStart(s) + |r| <= i < |s| ==> IsSpace(s[i])
    ensures |r| > 0 ==> !IsSpace(r[0]) && !IsSpace(r[|r| - 1])
  {
    RStrip(LStrip(s))
  }

  /** WTForms `DataRequired` on a string field: present and not blank. */
  predicate Required(s: string) {
    s != "" && Strip(s) != ""
  }

  /** A field passes `DataRequired` exactly when it holds a non-whitespace character. */
  lemma RequiredIffNonSpace(s: string)
    ensures Required(s) <==> exists i :: 0 <= i < |s| && !IsSpace(s[i])
  {
    var r := Strip(s);
    if r != "" {
      assert !IsSpace(s[StripStart(s)]);
    } else {
      assert forall i :: 0 <= i < |s| ==> IsSpace(s[i]);
    }
  }

  /** A WTForms `SelectField` with `DataRequired`: the value must be present,
      not blank, and one of the choices (`pre_validate` compares exactly,
      so case matters). */
  predicate Choice(value: string, choices: seq<string>) {
    Required(value) && value in choices
  }

  /** Every choice starts with a non-space character. */
  predicate NonBlankChoices(choices: seq<string>) {
    forall i :: 0 <= i < |choices| ==> |choices[i]| > 0 && !IsSpace(choices[i][0])
  }

  /** When no choice is blank, a field accepts exactly its choices. */
  lemma ChoiceIsMembership(value: string, choices: seq<string>)
    requires NonBlankChoices(choices)
    ensures Choice(value, choices) <==> value in choices
  {
    if value in choices {
      RequiredIffNonSpace(value);
      assert !IsSpace(value[0]);
    }
  }

  /** A string with no whitespace at either end is its own strip. */
  lemma {:induction false} StripFixed(s: string)
    requires |s| > 0 ==> !IsSpace(s[0]) && !IsSpace(s[|s| - 1])
    ensures Strip(s) == s
  {
  }

  // ---------------------------------------------------------------------
  // Decimal digits

  function DigitChar(d: nat): (c: char)
    requires d < 10
    ensures IsAsciiDigit(c)
  {
    ('0' as int + d) as char
  }

  function DigitValue(c: char): (d: nat)
    requires IsAsciiDigit(c)
    ensures d < 10 && DigitChar(d) == c
  {
    c as int - '0' as int
  }

  predicate AllDigits(s: string) {
    forall i :: 0 <= i < |s| ==> IsAsciiDigit(s[i])
  }

  /** Python's `int(s)` on a string of ASCII digits (0 for the empty string). */
  function DigitsValue(s: string): nat
    requires AllDigits(s)
  {
    if |s| == 0 then 0 else DigitsValue(s[..|s| - 1]) * 10 + DigitValue(s[|s| - 1])
  }

  /** Python's `str(n)` for a non-negative integer. */
  function NatToString(n: nat): (r: string)
    ensures |r| > 0 && AllDigits(r)
  {
    if n < 10 then [DigitChar(n)] else NatToString(n / 10) + [DigitChar(n % 10)]
  }

  /** Rendering a number in decimal and reading it back gives the number. */
  lemma {:induction false} NatToStringRoundTrip(n: nat)
    ensures DigitsValue(NatToString(n)) == n
  {
    if n < 10 {
      assert NatToString(n)[..0] == [];
    } else {
      var s := NatToString(n);
      assert s[..|s| - 1] == NatToString(n / 10);
      NatToStringRoundTrip(n / 10);
    }
  }

  lemma NatToStringInjective(a: nat, b: nat)
    requires NatToString(a) == NatToString(b)
    ensures a == b
  {
    NatToStringRoundTrip(a);
    NatToStringRoundTrip(b);
  }

  /** `'%02d' % n`. */
  function Digits2(n: nat): (r: string)
    requires n < 100
    ensures |r| == 2 && AllDigits(r)
  {
    [DigitChar(n / 10), DigitChar(n % 10)]
  }

  /** `'%04d' % n`. */
  function Digits4(n: nat): (r: string)
    requires n < 10000
    ensures |r| == 4 && AllDigits(r)
  {
    [DigitChar(n / 1000), DigitChar(n / 100 % 10), DigitChar(n / 10 % 10), DigitChar(n % 10)]
  }

  lemma Digits2RoundTrip(n: nat)
    requires n < 100
    ensures DigitsValue(Digits2(n)) == n
  {
    var s := Digits2(n);
    assert DigitsValue(s[..1]) == n / 10 by {
      assert s[..1][..0] == [];
    }
    assert DigitsValue(s) == DigitsValue(s[..1]) * 10 + n % 10;
  }

  lemma Digits4RoundTrip(n: nat)
    requires n < 10000
    ensures DigitsValue(Digits4(n)) == n
  {
    var s := Digits4(n);
    var q1, q2, q3 := n / 1000, n / 100, n / 10;
    assert q1 == q2 / 10 && q2 == q3 / 10;
    assert DigitsValue(s[..1]) == q1 by {
      assert s[..1][..0] == [];
    }
    assert s[..2][..1] == s[..1];
    assert DigitsValue(s[..2]) == q2 by {
      assert DigitsValue(s[..2]) == q1 * 10 + q2 % 10;
    }
    assert s[..3][..2] == s[..2];
    assert DigitsValue(s[..3]) == q3 by {
      assert DigitsValue(s[..3]) == q2 * 10 + q3 % 10;
    }
    assert s[..4][..3] == s[..3];
    assert DigitsValue(s) == q3 * 10 + n % 10;
  }
}
